=== FILE: README.md ===
# pycode algorithms in Dafny

This project models the small sequential algorithms of the `pycode` repository
and proves properties about them:

- the coverage-schedule merge `merge_overlaps`;
- the adjacency-map `Vertex`/`Graph` classes;
- the linked-list bit reader `getDecimalValue`/`getCountRec`;
- the matrix rotation `solution`;
- the binary search `guessNumber`;
- the bounded priority-queue selection `kth_smallest`;
- the two `defaultdict(int)` counters: `solution`, which returns the numbers that occur once, and `string_compression`.

Layout:

- Each source file has one module: `InsuranceCoverage`, `Graph`, `BinaryToDecimal`, `Rotate90`, `GuessNumber`, `KthSmallest`, `LeastOccurring` and `StringCompression`.
- Three modules are shared:
  - `Wrappers` holds `Option` and `Result`.
  - `Sorting` holds an insertion sort by a total order, plus uniqueness of sorted permutations.
  - `Frequency` holds the `defaultdict(int)` tally and its insertion-ordered key list.

Python errors are modelled as `Result.Failure`:

- the `IndexError` of a rotation read outside the matrix;
- the `KeyError` of `getWeight`;
- the `AttributeError` of `getVertex`.

Two outcomes without a value become `Option.None`:

- the final `get()` of `kth_smallest` on an empty queue, which blocks forever and never returns;
- `guessNumber` leaving its search loop, after which Python returns `None` implicitly.

`merge_overlaps` is modelled with its first `cleared_indexes` entry as a parameter:

- `InsuranceCoverage.MergeOverlaps` is the code as written, with `[1]`.
- `InsuranceCoverage.MergeOverlapsIntended` uses the sentinel -1.

`kth_smallest` keeps the `k` largest numbers and returns their minimum. So it returns the k-th largest number, not the k-th smallest. The model states what the code does.

## Model

| member | source | states |
|---|---|---|
| InsuranceCoverage.SortIntervals | coding_problems/insurance_coverage.py:22 | the list is put in Python's `[start, end]` order, keeping exactly the same entries |
| InsuranceCoverage.LexLeIsTotalOrder | coding_problems/insurance_coverage.py:22 | Python's ordering of two-element lists is a total order, so the sort is well defined |
| InsuranceCoverage.PartnersExactly | coding_problems/insurance_coverage.py:30-31 | the inner loop appends for exactly the later indices `j` whose entry contains `end_i`, in ascending order |
| InsuranceCoverage.MaxOfIsMax | coding_problems/insurance_coverage.py:28 | `max(cleared_indexes)` is one of its entries and no entry exceeds it |
| InsuranceCoverage.ClearPairsHolds | coding_problems/insurance_coverage.py:34 | `extend([i, j])` adds two entries per partner, each either `i` or a partner |
| InsuranceCoverage.MergedEntries | coding_problems/insurance_coverage.py:32-33 | one merged entry `[start_i, end_j]` is appended per partner `j`, in partner order |
| InsuranceCoverage.StepAppends | coding_problems/insurance_coverage.py:25-37 | one outer iteration only appends to `output_list` and `cleared_indexes`, never changing what is there |
| InsuranceCoverage.StepClearedGrows | coding_problems/insurance_coverage.py:24-34 | the maximum of `cleared_indexes` never decreases, and new entries are `i` or a later partner of `i` |
| InsuranceCoverage.StepSkipsAtMax | coding_problems/insurance_coverage.py:28-29 | index `i` emits nothing exactly when it equals `max(cleared_indexes)` |
| InsuranceCoverage.StepMergesEveryPartner | coding_problems/insurance_coverage.py:30-35 | a non-skipped `i` emits `[start_i, end_j]` for every later `j` whose entry contains `end_i` |
| InsuranceCoverage.StepKeepsLoneEntry | coding_problems/insurance_coverage.py:36-37 | a non-skipped `i` with no such `j` emits its own entry unchanged |
| InsuranceCoverage.StepEmitsShapes | coding_problems/insurance_coverage.py:31-37 | everything index `i` emits starts at `start_i` and ends at the end of `i` or of an entry containing `end_i` |
| InsuranceCoverage.WalkKeepsSeed | coding_problems/insurance_coverage.py:24 | the first entry of `cleared_indexes` stays the initial one throughout the walk |
| InsuranceCoverage.WalkClearedExtends | coding_problems/insurance_coverage.py:24-34 | across any number of iterations, `cleared_indexes` only grows at its end |
| InsuranceCoverage.WalkMaxGrows | coding_problems/insurance_coverage.py:24-34 | the skip threshold `max(cleared_indexes)` never decreases along the walk |
| InsuranceCoverage.WalkEmittable | coding_problems/insurance_coverage.py:25-37 | every entry the walk emits starts at some entry's start and ends at the end of that entry or of one containing its end |
| InsuranceCoverage.WalkOrdered | coding_problems/insurance_coverage.py:22-37 | on a sorted list the emitted starts are nondecreasing and none exceeds the start of the next index |
| InsuranceCoverage.WalkAccounted | coding_problems/insurance_coverage.py:24-37 | when `cleared_indexes` starts below every index, each passed or cleared entry lies inside some emitted entry |
| InsuranceCoverage.Step | coding_problems/insurance_coverage.py:25-37 | one outer iteration; no contract of its own: `StepAppends`, `StepSkipsAtMax`, `StepMergesEveryPartner`, `StepKeepsLoneEntry` and `StepEmitsShapes` state what it does |
| InsuranceCoverage.Walk | coding_problems/insurance_coverage.py:24-37 | the first `n` outer iterations from a given first `cleared_indexes` entry, so `cleared_indexes` is never empty; `WalkKeepsSeed` to `WalkAccounted` state what they build |
| InsuranceCoverage.MergeWithSeed | coding_problems/insurance_coverage.py:21-38 | `merge_overlaps` with the first `cleared_indexes` entry as a parameter; no contract of its own: `MergeCoversOnlyInput`, `MergeCoversAllInput`, `MergeKeepsForwards`, `MergeOrdered` and `MergeIgnoresInputOrder` state its result |
| InsuranceCoverage.MergeOverlaps | coding_problems/insurance_coverage.py:21-38 | `merge_overlaps` as written, seeded with `[1]`; no contract of its own: `MergeOverlapsCoversOnlyInput` and `SampleAsWritten` state its result |
| InsuranceCoverage.MergeOverlapsIntended | coding_problems/insurance_coverage.py:21-38 | `merge_overlaps` seeded with -1, which is no index; no contract of its own: `MergeIntendedKeepsCover` and `SampleIntended` state its result |
| InsuranceCoverage.MergeCoversOnlyInput | coding_problems/insurance_coverage.py:21-38 | whatever the first cleared entry, every day the result covers is covered by the input |
| InsuranceCoverage.MergeCoversAllInput | coding_problems/insurance_coverage.py:21-38 | with a first cleared entry below every index, every day the input covers is covered by the result |
| InsuranceCoverage.MergeIntendedKeepsCover | coding_problems/insurance_coverage.py:21-38 | the corrected merge covers a day if and only if the input does |
| InsuranceCoverage.MergeOverlapsCoversOnlyInput | coding_problems/insurance_coverage.py:21-38 | the merge as written never invents coverage |
| InsuranceCoverage.EmittableForwards | coding_problems/insurance_coverage.py:31-37 | an emittable entry over forward entries runs forwards, with its start and its end taken from the list |
| InsuranceCoverage.MergeKeepsForwards | coding_problems/insurance_coverage.py:31-37 | if every input entry has `start <= end`, so does every result entry, and its endpoints are a start and an end from the input |
| InsuranceCoverage.MergeOrdered | coding_problems/insurance_coverage.py:22-37 | the result's starts are nondecreasing |
| InsuranceCoverage.MergeIgnoresInputOrder | coding_problems/insurance_coverage.py:22 | two inputs holding the same entries in any order give the same result |
| InsuranceCoverage.SortSample | coding_problems/insurance_coverage.py:5 | the sample sorts to `[4,15] [18,21] [20,25] [28,30] [35,200]` |
| InsuranceCoverage.WalkSampleAsWritten | coding_problems/insurance_coverage.py:24-37 | on the sorted sample, seeded with 1, the walk skips index 1 and merges nothing |
| InsuranceCoverage.WalkSampleIntended | coding_problems/insurance_coverage.py:24-37 | on the sorted sample, seeded with -1, the walk merges `[18,21]` with `[20,25]` and then skips index 2 |
| InsuranceCoverage.WalkSeedPassedOver | coding_problems/insurance_coverage.py:24-37 | on `[[1,5],[2,3],[4,8]]`, seeded with 1, index 0 clears index 2, so index 1 is not skipped and the walk emits `[[1,8],[2,3]]` |
| InsuranceCoverage.WalkSeedSkipsMerged | coding_problems/insurance_coverage.py:24-37 | on `[[1,5],[2,6]]`, seeded with 1, index 0 merges index 1 into `[1,6]` and clears it, so skipping index 1 loses nothing |
| InsuranceCoverage.SampleAsWritten | coding_problems/insurance_coverage.py:24-29 | the code as written turns the sample into `[[4,15],[20,25],[28,30],[35,200]]` |
| InsuranceCoverage.SampleIntended | coding_problems/insurance_coverage.py:5-7 | the corrected merge turns the sample into the expected `[[4,15],[18,25],[28,30],[35,200]]` |
| InsuranceCoverage.SampleLosesDay18 | coding_problems/insurance_coverage.py:24-29 | day 18 is covered by the sample but not by the as-written result |
| InsuranceCoverage.AsWrittenResultMisses18 | coding_problems/insurance_coverage.py:7 | the as-written schedule leaves day 18, which the expected schedule covers, uncovered |
| Graph.NewVertex | ds_algorithms/graph_implementation.py:3-5 | a new vertex has the given key and no neighbours |
| Graph.NewVertexIsBare | ds_algorithms/graph_implementation.py:3-17 | through its accessors a new vertex reports its key, no connections, and `KeyError` for every weight |
| Graph.AddNeighbor | ds_algorithms/graph_implementation.py:7-8 | `addNeighbor`; no contract of its own: `AddNeighborSetsWeight` states its effect |
| Graph.GetConnections | ds_algorithms/graph_implementation.py:10-11 | `getConnections`, the neighbour keys; no contract of its own: `NewVertexIsBare`, `AddNeighborSetsWeight` and `GetWeight` state what it reports |
| Graph.GetId | ds_algorithms/graph_implementation.py:13-14 | `getId`; no contract of its own: `NewVertexIsBare` and `AddNeighborSetsWeight` state what it reports |
| Graph.AddNeighborSetsWeight | ds_algorithms/graph_implementation.py:7-8 | `addNeighbor` sets (or overwrites) one weight, adds that neighbour, and leaves the key and every other weight unchanged |
| Graph.GetWeight | ds_algorithms/graph_implementation.py:16-17 | the stored weight exactly when the argument is a connection, `KeyError` otherwise |
| Graph.NewGraph | ds_algorithms/graph_implementation.py:24-26 | the empty graph; no contract of its own: `NewGraphValid` states it is consistent |
| Graph.AddVertex | ds_algorithms/graph_implementation.py:28-32 | `addVertex`; no contract of its own: `AddVertexMapsFresh`, `AddVertexNewKeepsValid` and `AddVertexExistingOvercounts` state its effect |
| Graph.AddVertexMapsFresh | ds_algorithms/graph_implementation.py:28-32 | `addVertex` counts one more vertex and maps the key to a fresh bare vertex, replacing any old one, with other keys untouched |
| Graph.GetVertex | ds_algorithms/graph_implementation.py:34-38 | `getVertex` fails with `AttributeError` on every call |
| Graph.GetVertexFailsOnPresentKey | ds_algorithms/graph_implementation.py:35 | even for a key in the graph, `getVertex` fails where the corrected lookup finds the vertex |
| Graph.GetVertexIntended | ds_algorithms/graph_implementation.py:34-38 | the corrected lookup returns a vertex exactly for keys in the graph, and that key's vertex |
| Graph.AddEdge | ds_algorithms/graph_implementation.py:40-49 | `addEdge`; no contract of its own: `AddEdgeSetsWeight`, `AddEdgeCountsNewEndpoints` and `AddEdgeKeepsValid` state its effect |
| Graph.AddEdgeSetsWeight | ds_algorithms/graph_implementation.py:40-49 | after `addEdge(f, t, c)` both endpoints are present and `f`'s weight to `t` is `c`. An existing `f` keeps its other neighbours, and a created `f` has `t` as its only neighbour. A created `t` is bare, and every other existing vertex is unchanged |
| Graph.AddEdgeCountsNewEndpoints | ds_algorithms/graph_implementation.py:45-48 | `numVertices` grows by the number of endpoints that were absent |
| Graph.GetVertices | ds_algorithms/graph_implementation.py:51-52 | `getVertices`, the keys of `verList`; no contract of its own: `ContainsIffListed` relates it to `__contains__` |
| Graph.Contains | ds_algorithms/graph_implementation.py:57-58 | `__contains__`; no contract of its own: `ContainsIffListed` relates it to `getVertices` |
| Graph.ContainsIffListed | ds_algorithms/graph_implementation.py:51-58 | `n in g` holds exactly for the keys `getVertices` lists, which are the keys of `verList` |
| Graph.NewGraphValid | ds_algorithms/graph_implementation.py:24-26 | an empty graph counts its vertices correctly |
| Graph.AddVertexNewKeepsValid | ds_algorithms/graph_implementation.py:28-32 | adding an absent key keeps `numVertices == len(verList)` and every vertex under its own key |
| Graph.AddVertexExistingOvercounts | ds_algorithms/graph_implementation.py:28-32 | re-adding a present key counts it twice and wipes its neighbours |
| Graph.AddEdgeKeepsValid | ds_algorithms/graph_implementation.py:45-49 | `addEdge` adds only absent endpoints, so the count stays equal to the number of keys |
| Graph.AddVertices | ds_algorithms/graph_implementation.py:62-63 | `addVertex(i)` for `i` in `range(n)`; no contract of its own: `AddVerticesBare` states the graph it builds |
| Graph.AddVerticesBare | ds_algorithms/graph_implementation.py:62-63 | adding `0 .. n-1` gives a consistent graph with exactly those keys, all without neighbours |
| Graph.Demo | ds_algorithms/graph_implementation.py:60-66 | after six vertices and `addEdge(0,1,2)` there are 6 vertices and vertex 0's only neighbour is 1, with weight 2 |
| BinaryToDecimal.GetCountRec | coding_problems/binary_to_decimal.py:21-25 | the count is the length of the list, 0 for the empty list |
| BinaryToDecimal.GetDecimalValue | coding_problems/binary_to_decimal.py:8-19 | `getDecimalValue`; no contract of its own: `DecimalValueIsHorner`, `DecimalValueRange`, `LeadingZero` and the round trips state its value |
| BinaryToDecimal.DecimalValueIsHorner | coding_problems/binary_to_decimal.py:15-19 | the value is the most-significant-first binary reading: double and add each bit in turn |
| BinaryToDecimal.HornerPrepend | coding_problems/binary_to_decimal.py:15-19 | a bit in front of `n` more bits weighs `2 ** n` |
| BinaryToDecimal.DecimalValueRange | coding_problems/binary_to_decimal.py:15-19 | a list of `n` bits reads as a number in `[0, 2 ** n)` |
| BinaryToDecimal.LeadingZero | coding_problems/binary_to_decimal.py:19 | a leading 0 node does not change the value |
| BinaryToDecimal.ToBitsRoundTrip | coding_problems/binary_to_decimal.py:8-19 | writing a number below `2 ** n` as `n` bits and reading them back gives the number |
| BinaryToDecimal.HornerToBits | coding_problems/binary_to_decimal.py:15-19 | the binary reading inverts the `n`-bit writing |
| BinaryToDecimal.FromBitsRoundTrip | coding_problems/binary_to_decimal.py:8-19 | writing the value of a bit list with as many bits as the list has gives back the list |
| BinaryToDecimal.BitsHornerRoundTrip | coding_problems/binary_to_decimal.py:15-19 | the `n`-bit writing inverts the binary reading |
| BinaryToDecimal.SampleValue | coding_problems/binary_to_decimal.py:8-19 | the list 1 → 0 → 1 reads as 5 |
| Rotate90.Rotate | coding_problems/roatate_90degree.py:1-16 | succeeds exactly when every read is inside the matrix; the output then has the input's shape and `out[i][j] == matrix[abs(n-1-j)][i]` |
| Rotate90.RotateClockwise | coding_problems/roatate_90degree.py:1-16 | the clockwise quarter turn of a square matrix is square of the same size |
| Rotate90.SquareReadsInRange | coding_problems/roatate_90degree.py:10-12 | on a square matrix every read is inside the matrix, so no `IndexError` |
| Rotate90.RotateSquareIsClockwise | coding_problems/roatate_90degree.py:1-16 | on a square matrix the output is the clockwise quarter turn |
| Rotate90.FourTurnsIdentity | coding_problems/roatate_90degree.py:1-16 | four quarter turns give back the matrix |
| Rotate90.TallInputFails | coding_problems/roatate_90degree.py:10-12 | a 3×2 input makes a read outside the matrix |
| Rotate90.Sample | coding_problems/roatate_90degree.py:18-24 | the module-level sample rotates to `[[7,4,1],[8,5,2],[9,6,3]]` |
| GuessNumber.Guess | coding_problems/binary_search/guess_number.py:2-4 | 0 exactly at the hidden number, -1 exactly above it, 1 exactly below it |
| GuessNumber.Midpoint | coding_problems/binary_search/guess_number.py:13 | `(l + r) // 2` lies between `l` and `r` |
| GuessNumber.GuessNumberSearch | coding_problems/binary_search/guess_number.py:11-20 | returns the hidden number, with `guess` 0, exactly when it lies in `[0, n]`, and falls out of the loop otherwise |
| KthSmallest.Full | coding_problems/kth_smallest.py:10 | `PriorityQueue(maxsize).full()`: `0 < maxsize <= qsize()`; no contract of its own: `PutThenTrim` states that a round takes an item out exactly when the queue became full |
| KthSmallest.MinIndex | coding_problems/kth_smallest.py:11-12 | `get()` takes out an item no larger than any other queued item |
| KthSmallest.RemoveAt | coding_problems/kth_smallest.py:11 | taking an item out leaves the queue's other items |
| KthSmallest.PutThenTrim | coding_problems/kth_smallest.py:9-11 | one round adds `num` and, exactly when the queue became full, takes out one item. The queue's items come from the old queue plus `num`, and none is smaller than the item taken out |
| KthSmallest.PutGetKeepsOrder | coding_problems/kth_smallest.py:9-11 | taking out the minimum keeps every number taken out at most every number still queued |
| KthSmallest.RoundKeepsInvariant | coding_problems/kth_smallest.py:8-11 | after each round the queue holds `min(i, k)` items (all `i` when `k < 0`), and they are the largest of the numbers so far |
| KthSmallest.FillQueue | coding_problems/kth_smallest.py:7-11 | after the loop the queue and the numbers taken out are together all the numbers, the queue holds `min(len(nums), k)` of them (all when `k < 0`), and none taken out exceeds one still queued |
| KthSmallest.FinalQueueEmpty | coding_problems/kth_smallest.py:12 | the queue is empty at the final `get()` exactly when there are no numbers or `k == 0` |
| KthSmallest.FinalQueueRanks | coding_problems/kth_smallest.py:12 | the least queued number at the end has the rank of the queue size among all numbers, counted from the top |
| KthSmallest.KthSmallestSelect | coding_problems/kth_smallest.py:5-12 | blocks exactly for no numbers or `k == 0`; otherwise returns the `k`-th largest number (`k` capped at the count, all of them when `k < 0`) |
| KthSmallest.KthLargestUnique | coding_problems/kth_smallest.py:12 | the k-th largest value is unique, so the result is fully determined |
| KthSmallest.WholeRankIsMinimum | coding_problems/kth_smallest.py:7-12 | when `k` reaches the count of numbers, the result is their minimum |
| KthSmallest.Sample | coding_problems/kth_smallest.py:14 | `[8,3,0,5,1,4,9]` with `k == 7` returns 0 |
| KthSmallest.SampleSecondLargest | coding_problems/kth_smallest.py:2 | 8 is the second largest of the module-level list, with 9 and 8 as its top two |
| KthSmallest.SampleSecond | coding_problems/kth_smallest.py:2-12 | the module-level list with `k == 2` returns 8, its second largest number and not its second smallest |
| Frequency.Counts | coding_problems/findleast_occuring_number.py:5-7 | the `defaultdict(int)` tally `d[x] += 1`; no contract of its own: `CountsSnoc`, `CountsAreOccurrences` and `CountsIgnoreOrder` state its contents |
| Frequency.KeyOrder | coding_problems/findleast_occuring_number.py:5-7 | the tally's keys in insertion order; no contract of its own: `CountsSnoc`, `KeyOrderListsElements` and `CountsSumToLength` state what it lists |
| Frequency.CountsSnoc | coding_problems/findleast_occuring_number.py:6-7 | counting one more element raises its count by one and lists it last if it is new |
| Frequency.CountsAreOccurrences | coding_problems/findleast_occuring_number.py:5-7 | the table has exactly the elements as keys, each mapped to its number of occurrences, at least 1 |
| Frequency.KeyOrderListsElements | coding_problems/string_compression.py:6-8 | the dict's keys, in insertion order, list every element once and nothing else |
| Frequency.CountsSumToLength | coding_problems/string_compression.py:7-8 | the counts add up to the length of the input |
| Frequency.CountsIgnoreOrder | coding_problems/findleast_occuring_number.py:5-7 | inputs with the same elements, in any order, give the same table |
| LeastOccurring.IntLeIsTotalOrder | coding_problems/findleast_occuring_number.py:8 | `sorted`'s order on integers is a total order |
| LeastOccurring.Singles | coding_problems/findleast_occuring_number.py:8 | the comprehension keeps exactly the keys with count 1, without repeats |
| LeastOccurring.SinglesOccurOnce | coding_problems/findleast_occuring_number.py:5-8 | the kept keys are exactly the numbers that occur once in the input |
| LeastOccurring.SortedDistinctIncreasing | coding_problems/findleast_occuring_number.py:8 | sorting distinct numbers gives a strictly increasing list of the same numbers |
| LeastOccurring.Solution | coding_problems/findleast_occuring_number.py:2-8 | a number is in the result exactly when it occurs once in the input; the result strictly increases and is no longer than the input |
| LeastOccurring.SolutionIgnoresOrder | coding_problems/findleast_occuring_number.py:2-8 | inputs with the same elements, in any order, give the same result |
| LeastOccurring.SolutionSample | coding_problems/findleast_occuring_number.py:2-8 | `[4,1,4,3,1,7]` gives `[3,7]` |
| StringCompression.Compress | coding_problems/string_compression.py:5-9 | the keys are exactly the input's characters, each mapped to its number of occurrences, at least 1 |
| StringCompression.CompressCountsEveryCharacter | coding_problems/string_compression.py:7-8 | the counts, over the keys in insertion order, sum to the input's length |
| StringCompression.CompressIgnoresOrder | coding_problems/string_compression.py:7-8 | permuting the input does not change the table |
| StringCompression.CompressCountsNotRuns | coding_problems/string_compression.py:7-8 | `"ABA"` gives `{A: 2, B: 1}`: characters are counted, not runs |
| StringCompression.CompressSample | coding_problems/string_compression.py:1-11 | `'AAABCCDDDD'` gives `{A: 3, B: 1, C: 2, D: 4}` |

## Left out

- Module-level driver and `print` code (insurance_coverage.py:40, roatate_90degree.py:17,26, kth_smallest.py:14, string_compression.py:11, graph_implementation.py:66). The models return the computed values. The rotation returns the `out_matrix` it would print.
- `Vertex.__str__` and `Graph.__iter__` only format or iterate. They compute nothing that the other members do not already expose.
- Python object identity in the graph. The code keys a vertex's neighbours by `Vertex` objects, so re-adding a key leaves old edges pointing at the replaced object. The model keys neighbours by key and does not reproduce that aliasing.
- `Graph.GetVertex`: the model returns a failure where Python raises an exception. It does not model the traceback.
- The `guess` oracle is not defined in the repository. It becomes comparison against a hidden number `pick` passed as a parameter.
- A `get()` on an empty `PriorityQueue` blocks forever. `KthSmallest.KthSmallestSelect` returns `None` for it. Python's thread-safety machinery in `queue` is not modelled.
- Python's dynamic typing is not modelled:
  - list entries, bits, weights and numbers are `int`;
  - graph keys are any type with equality;
  - `ListNode` values are not restricted to 0 and 1, except where a lemma requires it.
- `dict` iteration order is modelled only for the frequency tables, whose key order feeds the sums. Graph adjacency is a Dafny `map`, and `getConnections` and `getVertices` return sets.
- The threaded API connectors (api_connectors/) and the scraper (web_scraping/) are not part of this model. They are network I/O, thread pools and dataframe transforms, not sequential logic.
- `merge_overlaps` sorts the caller's list in place (insurance_coverage.py:22), and a lone entry is appended as the caller's own inner list object (line 37). `InsuranceCoverage.MergeOverlaps` returns a new sequence and leaves its input untouched, because Dafny sequences are values.
- `getDecimalValue` and `getCountRec` recurse once per node (binary_to_decimal.py:19,25). A chain of about 1000 nodes exceeds Python's recursion limit and raises `RecursionError`. `BinaryToDecimal.GetDecimalValue` returns a value for every length, because the interpreter's stack limit is not modelled.
- The default arguments `weight = 0` of `addNeighbor` (graph_implementation.py:7) and `cost=0` of `addEdge` (line 40) have no counterpart. `Graph.AddNeighbor` and `Graph.AddEdge` always take the weight explicitly, because Dafny has no default arguments. A call that omits it is the call with 0.
- `string_compression` returns a `defaultdict(int)` (string_compression.py:6,9), so a later lookup of an absent character gives 0 and inserts it. `StringCompression.Compress` returns a plain `map` with only the input's characters as keys. Lookups made after the function returns are outside the model.
- StringCompression.Compress: takes a Dafny `string`, a sequence of Unicode scalar values. A Python `str` (string_compression.py:7) iterates code points and may hold lone surrogates, which a Dafny `char` cannot represent. Such strings are outside the model; counting is otherwise the same.
- The commented-out `add_engineer` draft in insurance_coverage.py:9-19 is not code and is not modelled.

## Findings

| source | as written | input that shows it | evidently intended | confidence | as-written member | corrected member |
|---|---|---|---|---|---|---|
| coding_problems/insurance_coverage.py:24 | `cleared_indexes` starts as `[1]`, so sorted index 1 is skipped whenever index 0 clears no index above 1, whether or not index 0 merged it (`WalkSeedSkipsMerged`); coverage is lost when index 0 did not merge it. When index 0 clears a higher index, index 1 is kept (`WalkSeedPassedOver`) | the sample at line 5: `[18,21]` sorts to index 1 and is dropped, so day 18 is lost and the result differs from the line-7 expectation | start with a value that is no index, so only cleared indices are skipped; the result then covers exactly the input's days | high, proved; not executed | InsuranceCoverage.MergeOverlaps, InsuranceCoverage.SampleLosesDay18 | InsuranceCoverage.MergeOverlapsIntended, InsuranceCoverage.MergeIntendedKeepsCover |
| ds_algorithms/graph_implementation.py:35 | `getVertex` tests `n in self.vertList`, an attribute that is never assigned | `getVertex(0)` after `addVertex(0)` raises `AttributeError` | test `self.verList`, returning the vertex for present keys and `None` otherwise | high, proved; not executed | Graph.GetVertex, Graph.GetVertexFailsOnPresentKey | Graph.GetVertexIntended |

=== FILE: binary_to_decimal.dfy ===
/**
 `Solution.getDecimalValue` and `Solution.getCountRec` from
 coding_problems/binary_to_decimal.py: read a singly linked list of bits as a
 binary number, most significant bit first.
 */
module BinaryToDecimal {

  /** The `ListNode` chain; `Nil` is Python's `None`. */
  datatype ListNode = Nil | Node(val: int, next: ListNode)

  /** The values along the chain, head first. */
  function ToSeq(node: ListNode): seq<int> {
    match node
    case Nil => []
    case Node(v, rest) => [v] + ToSeq(rest)
  }

  /** The chain holding `s`, head first. */
  function FromSeq(s: seq<int>): (node: ListNode)
    ensures ToSeq(node) == s
  {
    if |s| == 0 then Nil else Node(s[0], FromSeq(s[1..]))
  }

  function Pow2(n: nat): (p: nat)
    ensures p >= 1
  {
    if n == 0 then 1 else 2 * Pow2(n - 1)
  }

  /** `getCountRec(node)`: the number of nodes in the chain. */
  function GetCountRec(node: ListNode): (count: nat)
    ensures count == |ToSeq(node)|
  {
    match node
    case Nil => 0
    case Node(_, rest) => 1 + GetCountRec(rest)
  }

  /** `getDecimalValue(head)`: the head's value times `2 ** (count - 1)`, plus the
      value of the rest of the chain. */
  function GetDecimalValue(head: ListNode): int {
    match head
    case Nil => 0
    case Node(v, rest) => v * Pow2(GetCountRec(head) - 1) + GetDecimalValue(rest)
  }

  /** Reading bits most significant first, as a left fold: double and add. */
  function Horner(bits: seq<int>): int {
    if |bits| == 0 then 0 else 2 * Horner(bits[..|bits| - 1]) + bits[|bits| - 1]
  }

  /** The list is read most significant bit first: its value is the left fold
      that doubles and adds each bit in turn. */
  lemma {:induction false} DecimalValueIsHorner(head: ListNode)
    ensures GetDecimalValue(head) == Horner(ToSeq(head))
  {
    match head
    case Nil =>
    case Node(v, rest) =>
      DecimalValueIsHorner(rest);
      HornerPrepend(v, ToSeq(rest));
  }

  /** Putting a bit in front of `bits` adds it at weight `2 ** |bits|`. */
  lemma {:induction false} HornerPrepend(v: int, bits: seq<int>)
    ensures Horner([v] + bits) == v * Pow2(|bits|) + Horner(bits)
  {
    if |bits| > 0 {
      var p := bits[..|bits| - 1];
      assert ([v] + bits)[..|bits|] == [v] + p;
      HornerPrepend(v, p);
    }
  }

  /** Every value is a bit. */
  predicate IsBits(bits: seq<int>) {
    forall k :: 0 <= k < |bits| ==> bits[k] == 0 || bits[k] == 1
  }

  /** A list of `n` bits reads as a number in `[0, 2 ** n)`. */
  lemma {:induction false} DecimalValueRange(head: ListNode)
    requires IsBits(ToSeq(head))
    ensures 0 <= GetDecimalValue(head) < Pow2(GetCountRec(head))
  {
    match head
    case Nil =>
    case Node(v, rest) =>
      var bits := ToSeq(head);
      assert IsBits(ToSeq(rest)) by {
        forall k | 0 <= k < |ToSeq(rest)|
          ensures ToSeq(rest)[k] == 0 || ToSeq(rest)[k] == 1
        {
          assert ToSeq(rest)[k] == bits[k + 1];
        }
      }
      DecimalValueRange(rest);
      var n := GetCountRec(rest);
      assert Pow2(n + 1) == 2 * Pow2(n);
      assert v == 0 || v == 1 by {
        assert bits[0] == v;
      }
      if v == 0 {
        assert GetDecimalValue(head) == GetDecimalValue(rest);
      } else {
        assert GetDecimalValue(head) == Pow2(n) + GetDecimalValue(rest);
      }
  }

  /** A leading 0 node does not change the value. */
  lemma LeadingZero(head: ListNode)
    ensures GetDecimalValue(Node(0, head)) == GetDecimalValue(head)
  {
  }

  /** The `n`-bit list, most significant bit first, for `value`. */
  function ToBits(value: nat, n: nat): (bits: seq<int>)
    ensures |bits| == n && IsBits(bits)
  {
    if n == 0 then [] else ToBits(value / 2, n - 1) + [value % 2]
  }

  /** Every number below `2 ** n` is read back from its `n`-bit list. */
  lemma {:induction false} ToBitsRoundTrip(value: nat, n: nat)
    requires value < Pow2(n)
    ensures GetDecimalValue(FromSeq(ToBits(value, n))) == value
  {
    DecimalValueIsHorner(FromSeq(ToBits(value, n)));
    HornerToBits(value, n);
  }

  lemma {:induction false} HornerToBits(value: nat, n: nat)
    requires value < Pow2(n)
    ensures Horner(ToBits(value, n)) == value
  {
    if n > 0 {
      var bits := ToBits(value, n);
      assert bits[..n - 1] == ToBits(value / 2, n - 1);
      HornerToBits(value / 2, n - 1);
    }
  }

  /** Reading a list of bits and writing the number back gives the same list. */
  lemma {:induction false} FromBitsRoundTrip(head: ListNode)
    requires IsBits(ToSeq(head))
    ensures 0 <= GetDecimalValue(head)
    ensures ToBits(GetDecimalValue(head), GetCountRec(head)) == ToSeq(head)
  {
    DecimalValueRange(head);
    DecimalValueIsHorner(head);
    BitsHornerRoundTrip(ToSeq(head));
  }

  lemma {:induction false} BitsHornerRoundTrip(bits: seq<int>)
    requires IsBits(bits)
    ensures 0 <= Horner(bits)
    ensures ToBits(Horner(bits), |bits|) == bits
  {
    if |bits| > 0 {
      var p := bits[..|bits| - 1];
      BitsHornerRoundTrip(p);
      assert bits == p + [bits[|bits| - 1]];
    }
  }

  /** The list 1 -> 0 -> 1 reads as 5. */
  lemma SampleValue()
    ensures GetDecimalValue(Node(1, Node(0, Node(1, Nil)))) == 5
  {
  }
}

=== FILE: frequency.dfy ===
/**
 The tally a `defaultdict(int)` builds when `d[x] += 1` runs for each element
 of a sequence, in order. Both coding_problems/findleast_occuring_number.py and
 coding_problems/string_compression.py build this table.
 */
module Frequency {
  import opened Sorting

  /** The table after counting every element of `s`, one `d[x] += 1` per element. */
  function Counts<T(==)>(s: seq<T>): map<T, nat> {
    if |s| == 0 then map[]
    else
      var m := Counts(s[..|s| - 1]);
      var c := s[|s| - 1];
      m[c := (if c in m then m[c] else 0) + 1]
  }

  /** The order in which the keys of that table are listed: a Python dict keeps
      its keys in first-insertion order, so each element appears once, where it
      first occurs in `s`. */
  function KeyOrder<T(==)>(s: seq<T>): seq<T> {
    if |s| == 0 then []
    else
      var p := KeyOrder(s[..|s| - 1]);
      var c := s[|s| - 1];
      if c in p then p else p + [c]
  }

  /** Counting one more element: the table after `p + [c]` is the table after
      `p` with `c`'s count raised by one, and `c` is listed last if it is new. */
  lemma CountsSnoc<T>(p: seq<T>, c: T)
    ensures Counts(p + [c]) == Counts(p)[c := (if c in Counts(p) then Counts(p)[c] else 0) + 1]
    ensures KeyOrder(p + [c]) == if c in KeyOrder(p) then KeyOrder(p) else KeyOrder(p) + [c]
  {
    var s := p + [c];
    assert s[..|s| - 1] == p;
  }

  /** The keys of the table are the elements seen, and each value is the
      number of times that element occurs. */
  lemma {:induction false} CountsAreOccurrences<T>(s: seq<T>)
    ensures forall x :: x in Counts(s) <==> x in s
    ensures forall x :: x in Counts(s) ==> Counts(s)[x] == multiset(s)[x] && Counts(s)[x] >= 1
  {
    if |s| > 0 {
      var p := s[..|s| - 1];
      var c := s[|s| - 1];
      assert s == p + [c];
      CountsAreOccurrences(p);
      CountsSnoc(p, c);
      forall x
        ensures x in Counts(s) <==> x in s
        ensures x in Counts(s) ==> Counts(s)[x] == multiset(s)[x]
      {
        assert x in s <==> x in p || x == c;
        assert multiset(s)[x] == multiset(p)[x] + (if x == c then 1 else 0);
      }
    }
  }

  /** The listed keys are the elements seen, each listed once. */
  lemma {:induction false} KeyOrderListsElements<T>(s: seq<T>)
    ensures forall x :: x in KeyOrder(s) <==> x in s
    ensures Distinct(KeyOrder(s))
    ensures |KeyOrder(s)| <= |s|
  {
    if |s| > 0 {
      var p := s[..|s| - 1];
      var c := s[|s| - 1];
      assert s == p + [c];
      KeyOrderListsElements(p);
      CountsSnoc(p, c);
      assert forall x :: x in s <==> x in p || x == c;
    }
  }

  /** The listed keys are exactly the keys of the table. */
  lemma KeysListed<T>(s: seq<T>)
    ensures forall k :: k in KeyOrder(s) <==> k in Counts(s)
  {
    KeyOrderListsElements(s);
    CountsAreOccurrences(s);
  }

  /** The sum of the values `m` holds for the listed keys. */
  function SumOver<T>(keys: seq<T>, m: map<T, nat>): nat
    requires forall k :: k in keys ==> k in m
  {
    if |keys| == 0 then 0
    else SumOver(keys[..|keys| - 1], m) + m[keys[|keys| - 1]]
  }

  /** Changing the value of one key listed once changes the sum by the difference. */
  lemma {:induction false} SumOverUpdate<T>(keys: seq<T>, m: map<T, nat>, c: T, v: nat)
    requires forall k :: k in keys ==> k in m
    requires Distinct(keys) && c in keys
    ensures SumOver(keys, m[c := v]) + m[c] == SumOver(keys, m) + v
  {
    var p := keys[..|keys| - 1];
    var last := keys[|keys| - 1];
    if last == c {
      assert c !in p;
      SumOverFrame(p, m, m[c := v]);
    } else {
      assert c in p;
      SumOverUpdate(p, m, c, v);
    }
  }

  /** The sum reads only the listed keys. */
  lemma {:induction false} SumOverFrame<T>(keys: seq<T>, m: map<T, nat>, m': map<T, nat>)
    requires forall k :: k in keys ==> k in m && k in m' && m[k] == m'[k]
    ensures SumOver(keys, m) == SumOver(keys, m')
  {
    if |keys| > 0 {
      SumOverFrame(keys[..|keys| - 1], m, m');
    }
  }

  /** The counts, summed over all keys of the table, add up to the length of the
      counted sequence. */
  lemma {:induction false} CountsSumToLength<T>(s: seq<T>)
    ensures forall k :: k in KeyOrder(s) ==> k in Counts(s)
    ensures SumOver(KeyOrder(s), Counts(s)) == |s|
  {
    KeysListed(s);
    if |s| > 0 {
      var p := s[..|s| - 1];
      var c := s[|s| - 1];
      assert s == p + [c];
      CountsSumToLength(p);
      if c in Counts(p) {
        SumAfterRepeat(p, c);
      } else {
        SumAfterFirst(p, c);
      }
    }
  }

  /** Counting an element already seen adds one to the sum. */
  lemma SumAfterRepeat<T>(p: seq<T>, c: T)
    requires c in Counts(p)
    requires forall k :: k in KeyOrder(p) ==> k in Counts(p)
    ensures forall k :: k in KeyOrder(p + [c]) ==> k in Counts(p + [c])
    ensures SumOver(KeyOrder(p + [c]), Counts(p + [c])) == SumOver(KeyOrder(p), Counts(p)) + 1
  {
    KeysListed(p);
    assert Distinct(KeyOrder(p)) by { KeyOrderListsElements(p); }
    CountsSnoc(p, c);
    RaiseOne(KeyOrder(p), Counts(p), c);
  }

  /** Raising the count of one listed key by one raises the sum by one. */
  lemma RaiseOne<T>(keys: seq<T>, m: map<T, nat>, c: T)
    requires forall k :: k in keys ==> k in m
    requires Distinct(keys) && c in keys
    ensures SumOver(keys, m[c := m[c] + 1]) == SumOver(keys, m) + 1
  {
    SumOverUpdate(keys, m, c, m[c] + 1);
  }

  /** Counting an element for the first time lists it last, with count one. */
  lemma SumAfterFirst<T>(p: seq<T>, c: T)
    requires c !in Counts(p)
    requires forall k :: k in KeyOrder(p) ==> k in Counts(p)
    ensures forall k :: k in KeyOrder(p + [c]) ==> k in Counts(p + [c])
    ensures SumOver(KeyOrder(p + [c]), Counts(p + [c])) == SumOver(KeyOrder(p), Counts(p)) + 1
  {
    var m := Counts(p);
    var keys := KeyOrder(p);
    KeysListed(p);
    CountsSnoc(p, c);
    SumOverFrame(keys, m, Counts(p + [c]));
    assert (keys + [c])[..|keys|] == keys;
  }

  /** Counting depends only on the multiset of elements, not on their order. */
  lemma CountsIgnoreOrder<T>(a: seq<T>, b: seq<T>)
    requires multiset(a) == multiset(b)
    ensures Counts(a) == Counts(b)
  {
    CountsAreOccurrences(a);
    CountsAreOccurrences(b);
    assert forall x :: x in a <==> x in multiset(a);
    assert forall x :: x in b <==> x in multiset(b);
    assert Counts(a).Keys == Counts(b).Keys;
  }
}

=== FILE: graph.dfy ===
/**
 `Vertex` and `Graph` from ds_algorithms/graph_implementation.py: an adjacency
 map. Each vertex maps its neighbours to edge weights; the graph maps keys to
 vertices and counts `addVertex` calls in `numVertices`.

 The code keys a vertex's neighbours by the neighbour `Vertex` objects; the
 model keys them by the neighbour's key.
 */
module Graph {
  import opened Wrappers

  /** `Vertex(key)`: its key and its neighbour-to-weight map. */
  datatype Vertex<K(==)> = Vertex(id: K, connectedTo: map<K, int>)

  /** `Graph()`: the key-to-vertex map `verList` and the counter `numVertices`. */
  datatype Graph<K(==)> = Graph(verList: map<K, Vertex<K>>, numVertices: int)

  /** The exceptions the code can raise: a missing dictionary key, and a read
      of an attribute the object does not have. */
  datatype Error<K> = KeyError(key: K) | AttributeError(name: string)

  /** `Vertex.__init__(key)`. */
  function NewVertex<K(==)>(key: K): (v: Vertex<K>)
    ensures v.id == key && |v.connectedTo| == 0
  {
    Vertex(key, map[])
  }

  /** `addNeighbor(nbr, weight)`: sets the weight to `nbr`. */
  function AddNeighbor<K(==)>(v: Vertex<K>, nbr: K, weight: int): Vertex<K> {
    Vertex(v.id, v.connectedTo[nbr := weight])
  }

  /** `getConnections()`: the neighbours. */
  function GetConnections<K(==)>(v: Vertex<K>): set<K> {
    v.connectedTo.Keys
  }

  /** `getId()`. */
  function GetId<K(==)>(v: Vertex<K>): K {
    v.id
  }

  /** `getWeight(nbr)`: the stored weight, or `KeyError` when `nbr` is no neighbour. */
  function GetWeight<K(==)>(v: Vertex<K>, nbr: K): (r: Result<int, Error<K>>)
    ensures r.Success? <==> nbr in GetConnections(v)
    ensures r.Success? ==> r.value == v.connectedTo[nbr]
    ensures r.Failure? ==> r.error == KeyError(nbr)
  {
    if nbr in v.connectedTo then Success(v.connectedTo[nbr]) else Failure(KeyError(nbr))
  }

  /** `addNeighbor(nbr, weight)` makes `nbr` a neighbour with weight `weight`,
      overwriting any earlier weight, and leaves the key and every other
      neighbour's weight as they were. */
  lemma AddNeighborSetsWeight<K>(v: Vertex<K>, nbr: K, weight: int, other: K)
    ensures GetId(AddNeighbor(v, nbr, weight)) == GetId(v)
    ensures GetConnections(AddNeighbor(v, nbr, weight)) == GetConnections(v) + {nbr}
    ensures GetWeight(AddNeighbor(v, nbr, weight), nbr) == Success(weight)
    ensures other != nbr ==> GetWeight(AddNeighbor(v, nbr, weight), other) == GetWeight(v, other)
  {
  }

  /** A fresh vertex has its key and no neighbours. */
  lemma NewVertexIsBare<K>(key: K, nbr: K)
    ensures GetId(NewVertex(key)) == key
    ensures GetConnections(NewVertex(key)) == {}
    ensures GetWeight(NewVertex(key), nbr) == Failure(KeyError(nbr))
  {
  }

  /** `Graph.__init__()`. */
  function NewGraph<K(==)>(): Graph<K> {
    Graph(map[], 0)
  }

  /** `addVertex(key)`: returns the new graph and the new vertex. */
  function AddVertex<K(==)>(g: Graph<K>, key: K): (Graph<K>, Vertex<K>) {
    var v := NewVertex(key);
    (Graph(g.verList[key := v], g.numVertices + 1), v)
  }

  /** `addVertex(key)` counts one more vertex and maps `key` to a fresh vertex
      with no neighbours, replacing any vertex already there; every other key
      keeps its vertex. */
  lemma AddVertexMapsFresh<K>(g: Graph<K>, key: K, other: K)
    ensures AddVertex(g, key).0.numVertices == g.numVertices + 1
    ensures AddVertex(g, key).1 == NewVertex(key)
    ensures AddVertex(g, key).0.verList.Keys == g.verList.Keys + {key}
    ensures AddVertex(g, key).0.verList[key] == NewVertex(key)
    ensures other in g.verList && other != key ==> AddVertex(g, key).0.verList[other] == g.verList[other]
  {
  }

  /** `getVertex(n)` as written: the test reads `self.vertList`, which no code
      assigns (the attribute is `verList`), so every call raises `AttributeError`. */
  function GetVertex<K(==)>(g: Graph<K>, n: K): (r: Result<Vertex<K>, Error<K>>)
    ensures r.Failure? && r.error.AttributeError?
  {
    Failure(AttributeError("vertList"))
  }

  /** `getVertex(n)` with the attribute spelled `verList`: the vertex for `n`,
      or `None`. */
  function GetVertexIntended<K(==)>(g: Graph<K>, n: K): (r: Option<Vertex<K>>)
    ensures r.Some? <==> Contains(g, n)
    ensures r.Some? ==> r.value == g.verList[n]
  {
    if n in g.verList then Some(g.verList[n]) else None
  }

  /** `getVertex` as written fails even for a key the graph holds. */
  lemma GetVertexFailsOnPresentKey<K>(g: Graph<K>, n: K)
    requires Contains(g, n)
    ensures GetVertex(g, n).Failure?
    ensures GetVertexIntended(g, n) == Some(g.verList[n])
  {
  }

  /** `addEdge(f, t, cost)`: adds a vertex for each absent endpoint, then sets
      the weight from `f` to `t`. */
  function AddEdge<K(==)>(g: Graph<K>, f: K, t: K, cost: int): Graph<K> {
    var g1 := if f !in g.verList then AddVertex(g, f).0 else g;
    var g2 := if t !in g1.verList then AddVertex(g1, t).0 else g1;
    Graph(g2.verList[f := AddNeighbor(g2.verList[f], t, cost)], g2.numVertices)
  }

  /** After `addEdge(f, t, cost)` both endpoints are in the graph and the weight
      from `f` to `t` is `cost`. A vertex `f` that was already there keeps its
      other neighbours; a vertex created for `f` has `t` as its only neighbour.
      A vertex created for `t` is bare, and every vertex that was already there,
      other than `f`, is unchanged. */
  lemma AddEdgeSetsWeight<K>(g: Graph<K>, f: K, t: K, cost: int, other: K)
    ensures AddEdge(g, f, t, cost).verList.Keys == g.verList.Keys + {f, t}
    ensures GetWeight(AddEdge(g, f, t, cost).verList[f], t) == Success(cost)
    ensures f in g.verList ==> AddEdge(g, f, t, cost).verList[f] == AddNeighbor(g.verList[f], t, cost)
    ensures f !in g.verList ==> AddEdge(g, f, t, cost).verList[f] == AddNeighbor(NewVertex(f), t, cost)
    ensures t !in g.verList && t != f ==> AddEdge(g, f, t, cost).verList[t] == NewVertex(t)
    ensures other in g.verList && other != f ==> AddEdge(g, f, t, cost).verList[other] == g.verList[other]
  {
  }

  /** `addEdge` counts one vertex per absent endpoint. */
  lemma AddEdgeCountsNewEndpoints<K>(g: Graph<K>, f: K, t: K, cost: int)
    ensures AddEdge(g, f, t, cost).numVertices == g.numVertices + |{f, t} - g.verList.Keys|
  {
    if f == t {
      assert {f, t} == {f};
    } else if f in g.verList && t in g.verList {
      assert {f, t} - g.verList.Keys == {};
    } else if f in g.verList {
      assert {f, t} - g.verList.Keys == {t};
    } else if t in g.verList {
      assert {f, t} - g.verList.Keys == {f};
    }
  }

  /** `getVertices()`: the keys. */
  function GetVertices<K(==)>(g: Graph<K>): set<K> {
    g.verList.Keys
  }

  /** `__contains__(n)`, Python's `n in g`. */
  predicate Contains<K(==)>(g: Graph<K>, n: K) {
    n in g.verList
  }

  /** `__contains__` holds exactly for the keys `getVertices` lists, and those
      are the keys of `verList`. */
  lemma ContainsIffListed<K>(g: Graph<K>, n: K)
    ensures Contains(g, n) <==> n in GetVertices(g)
    ensures n in GetVertices(g) <==> n in g.verList
  {
  }

  /** The graph is consistent: `numVertices` counts the keys, and every vertex
      is stored under its own key. */
  ghost predicate Valid<K>(g: Graph<K>) {
    && g.numVertices == |g.verList.Keys|
    && (forall k :: k in g.verList ==> g.verList[k].id == k)
  }

  lemma NewGraphValid<K>()
    ensures Valid(NewGraph<K>())
  {
  }

  /** Adding a vertex under a new key keeps the graph consistent. */
  lemma AddVertexNewKeepsValid<K>(g: Graph<K>, key: K)
    requires Valid(g) && key !in g.verList
    ensures Valid(AddVertex(g, key).0)
  {
  }

  /** Adding a vertex under a key already present counts it twice and drops
      the old vertex's edges. */
  lemma AddVertexExistingOvercounts<K>(g: Graph<K>, key: K)
    requires Valid(g) && key in g.verList
    ensures AddVertex(g, key).0.numVertices == |AddVertex(g, key).0.verList.Keys| + 1
    ensures GetConnections(AddVertex(g, key).0.verList[key]) == {}
  {
    assert AddVertex(g, key).0.verList.Keys == g.verList.Keys;
  }

  /** `addEdge` adds vertices only for absent endpoints, so it keeps the graph
      consistent. */
  lemma AddEdgeKeepsValid<K>(g: Graph<K>, f: K, t: K, cost: int)
    requires Valid(g)
    ensures Valid(AddEdge(g, f, t, cost))
  {
    var g1 := if f !in g.verList then AddVertex(g, f).0 else g;
    if f !in g.verList {
      AddVertexNewKeepsValid(g, f);
    }
    var g2 := if t !in g1.verList then AddVertex(g1, t).0 else g1;
    if t !in g1.verList {
      AddVertexNewKeepsValid(g1, t);
    }
    assert Valid(g2);
    var r := AddEdge(g, f, t, cost);
    assert r.verList.Keys == g2.verList.Keys;
  }

  /** The graph after the demo adds vertices `0 .. count - 1`, in order. */
  function AddVertices(count: nat): Graph<int> {
    if count == 0 then NewGraph() else AddVertex(AddVertices(count - 1), count - 1).0
  }

  /** Adding vertices `0 .. count - 1` gives a consistent graph with exactly
      those keys, none of them with a neighbour. */
  lemma {:induction false} AddVerticesBare(count: nat)
    ensures Valid(AddVertices(count))
    ensures forall k :: k in AddVertices(count).verList <==> 0 <= k < count
    ensures forall k :: k in AddVertices(count).verList ==> AddVertices(count).verList[k] == NewVertex(k)
  {
    if count > 0 {
      AddVerticesBare(count - 1);
      AddVertexNewKeepsValid(AddVertices(count - 1), count - 1);
    }
  }

  /** The demo: after vertices 0 to 5 and `addEdge(0, 1, 2)`, vertex 0's only
      neighbour is 1, with weight 2, and there are still six vertices. */
  lemma Demo()
    ensures AddEdge(AddVertices(6), 0, 1, 2).numVertices == 6
    ensures GetConnections(AddEdge(AddVertices(6), 0, 1, 2).verList[0]) == {1}
    ensures GetWeight(AddEdge(AddVertices(6), 0, 1, 2).verList[0], 1) == Success(2)
  {
    var g0 := AddVertices(6);
    AddVerticesBare(6);
    assert 0 in g0.verList && 1 in g0.verList;
    AddEdgeKeepsValid(g0, 0, 1, 2);
    AddEdgeSetsWeight(g0, 0, 1, 2, 0);
    assert g0.verList[0] == NewVertex(0);
  }
}

=== FILE: guess_number.dfy ===
/**
 `Solution.guessNumber` from coding_problems/binary_search/guess_number.py:
 binary search for a hidden number over `[0, n]`, driven by the `guess`
 oracle. The oracle is not part of the file; it is modelled as comparison
 against the hidden number `pick`, passed as a parameter.
 */
module GuessNumber {
  import opened Wrappers

  /** `guess(num)`: -1 if the hidden number is lower than `num`, 1 if it is
      higher, 0 if `num` is the hidden number. */
  function Guess(pick: int, num: int): (r: int)
    ensures r == 0 <==> num == pick
    ensures r == -1 <==> pick < num
    ensures r == 1 <==> pick > num
  {
    if pick < num then -1 else if pick > num then 1 else 0
  }

  /** Python's `//` on the midpoint. Both operands are non-negative inside the
      loop, so floor division agrees with Dafny's division there. */
  function Midpoint(l: int, r: int): (m: int)
    requires 0 <= l <= r
    ensures l <= m <= r
  {
    (l + r) / 2
  }

  /** `guessNumber(n)`: `Some(m)` for the `m` it returns, `None` when the loop
      ends without returning (Python then returns `None`). */
  method GuessNumberSearch(n: int, pick: int) returns (result: Option<int>)
    ensures result == Some(pick) <==> 0 <= pick <= n
    ensures result == None <==> !(0 <= pick <= n)
    ensures result.Some? ==> Guess(pick, result.value) == 0
  {
    var l, r := 0, n;
    while l <= r
      invariant 0 <= l
      invariant 0 <= pick <= n ==> l <= pick <= r
      invariant !(0 <= pick <= n) ==> pick < l || r < pick
      decreases r - l
    {
      var m := Midpoint(l, r);
      var x := Guess(pick, m);
      if x == -1 {
        l, r := l, m - 1;
      } else if x == 1 {
        l, r := m + 1, r;
      } else {
        return Some(m);
      }
    }
    return None;
  }
}

=== FILE: insurance_coverage.dfy ===
/**
 `merge_overlaps` from coding_problems/insurance_coverage.py: sorts a list of
 `[start, end]` coverage entries, then walks it by index. An index equal to the
 largest entry of `cleared_indexes` emits nothing; any other index `i` emits
 `[start_i, end_j]` for every later `j` whose entry contains `end_i`, or, when
 there is no such `j`, its own entry.

 `cleared_indexes` starts as `[1]` in the code. The walk is modelled for an
 arbitrary first entry `seed`, so that the code as written (seed 1) can be set
 against the evidently intended sentinel (seed -1, below every index).
 */
module InsuranceCoverage {
  import opened Sorting

  /** One coverage entry `[start, end]`, a two-element Python list. */
  datatype Interval = Interval(start: int, end: int)

  /** Python's ordering of two-element lists: by start, then by end. */
  predicate LexLe(a: Interval, b: Interval) {
    a.start < b.start || (a.start == b.start && a.end <= b.end)
  }

  lemma LexLeIsTotalOrder()
    ensures IsTotalOrder(LexLe)
  {
  }

  /** `input_list.sort()`: the input in lexicographic order. */
  function SortIntervals(s: seq<Interval>): (r: seq<Interval>)
    ensures SortedBy(r, LexLe)
    ensures multiset(r) == multiset(s)
  {
    LexLeIsTotalOrder();
    SortBy(s, LexLe)
  }

  /** The inner-loop test `input_list[j][0] <= value <= input_list[j][1]`. */
  predicate Reaches(a: Interval, value: int) {
    a.start <= value <= a.end
  }

  /** The indices `j` in `[from, |s|)` whose entry contains the end of entry `i`,
      in ascending order: the iterations of the inner loop that append. */
  function Partners(s: seq<Interval>, i: nat, from: nat): seq<nat>
    requires i < |s| && from <= |s|
    decreases |s| - from
  {
    if from == |s| then []
    else if Reaches(s[from], s[i].end) then [from] + Partners(s, i, from + 1)
    else Partners(s, i, from + 1)
  }

  /** `Partners` lists exactly the indices from `from` on whose entry contains
      the end of entry `i`, each once, in ascending order. */
  lemma {:induction false} PartnersExactly(s: seq<Interval>, i: nat, from: nat)
    requires i < |s| && from <= |s|
    ensures forall k :: 0 <= k < |Partners(s, i, from)| ==>
      from <= Partners(s, i, from)[k] < |s| && Reaches(s[Partners(s, i, from)[k]], s[i].end)
    ensures forall j :: from <= j < |s| && Reaches(s[j], s[i].end) ==> j in Partners(s, i, from)
    ensures forall a, b :: 0 <= a < b < |Partners(s, i, from)| ==> Partners(s, i, from)[a] < Partners(s, i, from)[b]
    decreases |s| - from
  {
    if from < |s| {
      PartnersExactly(s, i, from + 1);
    }
  }

  /** `max(cleared_indexes)`. */
  function MaxOf(s: seq<int>): int
    requires |s| > 0
  {
    if |s| == 1 then s[0]
    else
      var m := MaxOf(s[1..]);
      if s[0] >= m then s[0] else m
  }

  /** `MaxOf` is an element of the list, and no element exceeds it. */
  lemma {:induction false} MaxOfIsMax(s: seq<int>)
    requires |s| > 0
    ensures MaxOf(s) in s
    ensures forall k :: 0 <= k < |s| ==> s[k] <= MaxOf(s)
  {
    if |s| > 1 {
      MaxOfIsMax(s[1..]);
      assert forall k :: 1 <= k < |s| ==> s[k] == s[1..][k - 1];
    }
  }

  /** What `cleared_indexes.extend([i, j])` adds over the appending iterations. */
  function ClearPairs(i: int, js: seq<nat>): seq<int> {
    if |js| == 0 then [] else [i, js[0]] + ClearPairs(i, js[1..])
  }

  /** Those additions are `i` and the partners, two per partner. */
  lemma {:induction false} ClearPairsHolds(i: int, js: seq<nat>)
    ensures |ClearPairs(i, js)| == 2 * |js|
    ensures forall k :: 0 <= k < |ClearPairs(i, js)| ==> ClearPairs(i, js)[k] == i || ClearPairs(i, js)[k] in js
  {
    if |js| > 0 {
      ClearPairsHolds(i, js[1..]);
      var r := ClearPairs(i, js);
      assert r == [i, js[0]] + ClearPairs(i, js[1..]);
      forall k | 2 <= k < |r|
        ensures r[k] == i || r[k] in js
      {
        assert r[k] == ClearPairs(i, js[1..])[k - 2];
      }
    }
  }

  /** The loop state carried from one index to the next. */
  datatype State = State(out: seq<Interval>, cleared: seq<int>)

  /** Every entry the walk emits has this shape: the start of an entry `a` and
      the end of an entry `b`, where `b` is `a` itself or a later entry that
      contains the end of `a`. */
  predicate Emittable(s: seq<Interval>, o: Interval) {
    exists a, b :: 0 <= a <= b < |s| && o.start == s[a].start && o.end == s[b].end
      && (a == b || Reaches(s[b], s[a].end))
  }

  /** The entries the appending iterations for index `i` add, one per partner `j`. */
  function Merged(s: seq<Interval>, i: nat, js: seq<nat>): seq<Interval>
    requires i < |s|
    requires forall k :: 0 <= k < |js| ==> js[k] < |s|
  {
    if |js| == 0 then []
    else [Interval(s[i].start, s[js[0]].end)] + Merged(s, i, js[1..])
  }

  /** Entry `k` of `Merged` joins the start of entry `i` to the end of partner `k`. */
  lemma {:induction false} MergedEntries(s: seq<Interval>, i: nat, js: seq<nat>)
    requires i < |s|
    requires forall k :: 0 <= k < |js| ==> js[k] < |s|
    ensures |Merged(s, i, js)| == |js|
    ensures forall k :: 0 <= k < |js| ==> Merged(s, i, js)[k] == Interval(s[i].start, s[js[k]].end)
  {
    if |js| > 0 {
      MergedEntries(s, i, js[1..]);
    }
  }

  /** One iteration of the outer loop, for index `i`: it appends to both lists. */
  function Step(s: seq<Interval>, i: nat, st: State): State
    requires i < |s| && |st.cleared| > 0
  {
    if i == MaxOf(st.cleared) then st
    else
      var js := Partners(s, i, i + 1);
      PartnersExactly(s, i, i + 1);
      if |js| == 0 then State(st.out + [s[i]], st.cleared)
      else State(st.out + Merged(s, i, js), st.cleared + ClearPairs(i, js))
  }

  /** One iteration only appends, to the output and to `cleared_indexes`. */
  lemma StepAppends(s: seq<Interval>, i: nat, st: State)
    requires i < |s| && |st.cleared| > 0
    ensures |st.cleared| <= |Step(s, i, st).cleared| && Step(s, i, st).cleared[..|st.cleared|] == st.cleared
    ensures |st.out| <= |Step(s, i, st).out| && Step(s, i, st).out[..|st.out|] == st.out
  {
  }

  /** The entries index `i` emits. */
  function Emitted(s: seq<Interval>, i: nat, st: State): seq<Interval>
    requires i < |s| && |st.cleared| > 0
  {
    StepAppends(s, i, st);
    Step(s, i, st).out[|st.out|..]
  }

  /** `cleared_indexes` only grows, so its maximum never decreases. */
  lemma StepClearedGrows(s: seq<Interval>, i: nat, st: State)
    requires i < |s| && |st.cleared| > 0
    ensures MaxOf(st.cleared) <= MaxOf(Step(s, i, st).cleared)
    ensures forall c :: c in Step(s, i, st).cleared[|st.cleared|..] ==>
      c == i || (i < c < |s| && Reaches(s[c], s[i].end))
  {
    var r := Step(s, i, st);
    StepAppends(s, i, st);
    PartnersExactly(s, i, i + 1);
    ClearPairsHolds(i, Partners(s, i, i + 1));
    MaxOfExtend(st.cleared, r.cleared[|st.cleared|..]);
    assert st.cleared + r.cleared[|st.cleared|..] == r.cleared;
  }

  /** Index `i` emits nothing exactly when it equals the largest cleared index. */
  lemma StepSkipsAtMax(s: seq<Interval>, i: nat, st: State)
    requires i < |s| && |st.cleared| > 0
    ensures |Emitted(s, i, st)| == 0 <==> i == MaxOf(st.cleared)
  {
  }

  /** A non-skipped index emits `[start_i, end_j]` for every later `j` whose
      entry contains `end_i`. */
  lemma StepMergesEveryPartner(s: seq<Interval>, i: nat, st: State, j: nat)
    requires i < j < |s| && |st.cleared| > 0
    requires i != MaxOf(st.cleared)
    requires Reaches(s[j], s[i].end)
    ensures Interval(s[i].start, s[j].end) in Emitted(s, i, st)
  {
    var js := Partners(s, i, i + 1);
    PartnersExactly(s, i, i + 1);
    var k :| 0 <= k < |js| && js[k] == j;
    MergedEntries(s, i, js);
    assert Emitted(s, i, st) == Merged(s, i, js);
    assert Emitted(s, i, st)[k] == Interval(s[i].start, s[j].end);
  }

  /** A non-skipped index without such a `j` emits its own entry, unchanged. */
  lemma StepKeepsLoneEntry(s: seq<Interval>, i: nat, st: State)
    requires i < |s| && |st.cleared| > 0
    requires i != MaxOf(st.cleared)
    requires forall j :: i < j < |s| ==> !Reaches(s[j], s[i].end)
    ensures Emitted(s, i, st) == [s[i]]
  {
    PartnersExactly(s, i, i + 1);
  }

  /** Every emitted entry starts where entry `i` starts and has the emittable shape. */
  lemma StepEmitsShapes(s: seq<Interval>, i: nat, st: State)
    requires i < |s| && |st.cleared| > 0
    ensures forall o :: o in Emitted(s, i, st) ==> o.start == s[i].start && Emittable(s, o)
  {
    if i != MaxOf(st.cleared) {
      var js := Partners(s, i, i + 1);
      PartnersExactly(s, i, i + 1);
      if |js| == 0 {
        assert Emitted(s, i, st) == [s[i]];
        assert Emittable(s, s[i]) by { assert s[i].start == s[i].start; }
      } else {
        var e := Merged(s, i, js);
        MergedEntries(s, i, js);
        assert Emitted(s, i, st) == e;
        forall o | o in e
          ensures o.start == s[i].start && Emittable(s, o)
        {
          var k :| 0 <= k < |e| && e[k] == o;
          assert o.end == s[js[k]].end;
        }
      }
    }
  }

  /** Appending to a sequence never lowers its maximum. */
  lemma MaxOfExtend(a: seq<int>, b: seq<int>)
    requires |a| > 0
    ensures MaxOf(a) <= MaxOf(a + b)
  {
    MaxOfIsMax(a);
    MaxOfIsMax(a + b);
    var k :| 0 <= k < |a| && a[k] == MaxOf(a);
    assert (a + b)[k] == a[k];
  }

  /** The loop state after the outer loop has handled indices `0 .. n-1`,
      starting from no output and `cleared_indexes == [seed]`. */
  function Walk(s: seq<Interval>, n: nat, seed: int): (r: State)
    requires n <= |s|
    ensures |r.cleared| > 0
  {
    if n == 0 then State([], [seed]) else Step(s, n - 1, Walk(s, n - 1, seed))
  }

  /** The first entry of `cleared_indexes` stays the seed. */
  lemma {:induction false} WalkKeepsSeed(s: seq<Interval>, n: nat, seed: int)
    requires n <= |s|
    ensures Walk(s, n, seed).cleared[0] == seed
  {
    if n > 0 {
      var k := n - 1;
      var st := Walk(s, k, seed);
      WalkKeepsSeed(s, k, seed);
      var c := Step(s, k, st).cleared;
      assert Walk(s, n, seed).cleared == c;
      assert c[0] == c[..|st.cleared|][0];
    }
  }

  /** `cleared_indexes` only grows over the walk: each later state extends each
      earlier one. */
  lemma {:induction false} WalkClearedExtends(s: seq<Interval>, m: nat, n: nat, seed: int)
    requires m <= n <= |s|
    ensures |Walk(s, m, seed).cleared| <= |Walk(s, n, seed).cleared|
    ensures Walk(s, n, seed).cleared[..|Walk(s, m, seed).cleared|] == Walk(s, m, seed).cleared
  {
    if m < n {
      var a := Walk(s, m, seed).cleared;
      var k := n - 1;
      var st := Walk(s, k, seed);
      WalkClearedExtends(s, m, k, seed);
      var c := Step(s, k, st).cleared;
      assert Walk(s, n, seed).cleared == c;
      PrefixTransitive(a, st.cleared, c);
    }
  }

  lemma PrefixTransitive<T>(a: seq<T>, b: seq<T>, c: seq<T>)
    requires |a| <= |b| && b[..|a|] == a
    requires |b| <= |c| && c[..|b|] == b
    ensures c[..|a|] == a
  {
    assert c[..|a|] == c[..|b|][..|a|];
  }

  /** The maximum of `cleared_indexes` never decreases over the walk. */
  lemma {:induction false} WalkMaxGrows(s: seq<Interval>, m: nat, n: nat, seed: int)
    requires m <= n <= |s|
    ensures MaxOf(Walk(s, m, seed).cleared) <= MaxOf(Walk(s, n, seed).cleared)
  {
    if m < n {
      var k := n - 1;
      var st := Walk(s, k, seed);
      WalkMaxGrows(s, m, k, seed);
      StepClearedGrows(s, k, st);
      assert Walk(s, n, seed) == Step(s, k, st);
    }
  }

  /** One iteration keeps every emitted entry emittable. */
  lemma StepKeepsEmittable(s: seq<Interval>, i: nat, st: State)
    requires i < |s| && |st.cleared| > 0
    requires forall k :: 0 <= k < |st.out| ==> Emittable(s, st.out[k])
    ensures forall k :: 0 <= k < |Step(s, i, st).out| ==> Emittable(s, Step(s, i, st).out[k])
  {
    var next := Step(s, i, st);
    StepEmitsShapes(s, i, st);
    forall k | 0 <= k < |next.out|
      ensures Emittable(s, next.out[k])
    {
      if k >= |st.out| {
        assert next.out[k] == Emitted(s, i, st)[k - |st.out|];
      } else {
        assert next.out[k] == st.out[k];
      }
    }
  }

  /** Every entry the walk emits has the emittable shape. */
  lemma {:induction false} WalkEmittable(s: seq<Interval>, n: nat, seed: int)
    requires n <= |s|
    ensures forall k :: 0 <= k < |Walk(s, n, seed).out| ==> Emittable(s, Walk(s, n, seed).out[k])
  {
    if n > 0 {
      var i := n - 1;
      var st := Walk(s, i, seed);
      WalkEmittable(s, i, seed);
      StepKeepsEmittable(s, i, st);
      assert Walk(s, n, seed) == Step(s, i, st);
    }
  }

  /** The starts of a list of entries never decrease. */
  predicate StartsNondecreasing(out: seq<Interval>) {
    forall a, b :: 0 <= a < b < |out| ==> out[a].start <= out[b].start
  }

  /** One iteration on a sorted list keeps the starts in order. */
  lemma StepKeepsOrder(s: seq<Interval>, i: nat, st: State)
    requires i < |s| && |st.cleared| > 0
    requires SortedBy(s, LexLe)
    requires StartsNondecreasing(st.out)
    requires forall k :: 0 <= k < |st.out| ==> st.out[k].start <= s[i].start
    ensures StartsNondecreasing(Step(s, i, st).out)
    ensures i + 1 < |s| ==> forall k :: 0 <= k < |Step(s, i, st).out| ==> Step(s, i, st).out[k].start <= s[i + 1].start
  {
    var next := Step(s, i, st);
    StepEmitsShapes(s, i, st);
    forall k | |st.out| <= k < |next.out|
      ensures next.out[k].start == s[i].start
    {
      assert next.out[k] == Emitted(s, i, st)[k - |st.out|];
    }
    assert forall k :: 0 <= k < |st.out| ==> next.out[k] == st.out[k];
    if i + 1 < |s| {
      assert LexLe(s[i], s[i + 1]);
    }
  }

  /** On a sorted list the walk emits entries in nondecreasing order of start,
      none of them starting after the next entry to be handled. */
  lemma {:induction false} WalkOrdered(s: seq<Interval>, n: nat, seed: int)
    requires n <= |s|
    requires SortedBy(s, LexLe)
    ensures StartsNondecreasing(Walk(s, n, seed).out)
    ensures n < |s| ==> forall k :: 0 <= k < |Walk(s, n, seed).out| ==> Walk(s, n, seed).out[k].start <= s[n].start
  {
    if n > 0 {
      var i := n - 1;
      var st := Walk(s, i, seed);
      WalkOrdered(s, i, seed);
      StepKeepsOrder(s, i, st);
      assert Walk(s, n, seed) == Step(s, i, st);
    }
  }

  /** Entry `x` lies inside one of the entries of `out`. */
  predicate ContainedIn(x: Interval, out: seq<Interval>) {
    exists k :: 0 <= k < |out| && out[k].start <= x.start && x.end <= out[k].end
  }

  /** What the walk keeps true when `cleared_indexes` starts below every index:
      every index already passed, and every index cleared after the seed, has its
      entry inside an emitted entry. */
  ghost predicate Accounted(s: seq<Interval>, i: nat, st: State) {
    && |st.cleared| > 0
    && (forall c :: 0 <= c < i && c < |s| ==> ContainedIn(s[c], st.out))
    && (forall k :: 1 <= k < |st.cleared| ==>
          0 <= st.cleared[k] < |s| && ContainedIn(s[st.cleared[k]], st.out))
  }

  lemma ContainedInExtend(x: Interval, out: seq<Interval>, out': seq<Interval>)
    requires ContainedIn(x, out)
    requires |out| <= |out'| && out'[..|out|] == out
    ensures ContainedIn(x, out')
  {
    var k :| 0 <= k < |out| && out[k].start <= x.start && x.end <= out[k].end;
    assert out'[k] == out[k];
  }

  /** What `Accounted` says of the earlier state survives appending. */
  lemma AccountedCarried(s: seq<Interval>, i: nat, st: State, next: State)
    requires Accounted(s, i, st)
    requires |st.out| <= |next.out| && next.out[..|st.out|] == st.out
    requires |st.cleared| <= |next.cleared| && next.cleared[..|st.cleared|] == st.cleared
    ensures forall c :: 0 <= c < i && c < |s| ==> ContainedIn(s[c], next.out)
    ensures forall k :: 1 <= k < |st.cleared| ==>
      0 <= next.cleared[k] < |s| && ContainedIn(s[next.cleared[k]], next.out)
  {
    forall c | 0 <= c < i && c < |s|
      ensures ContainedIn(s[c], next.out)
    {
      ContainedInExtend(s[c], st.out, next.out);
    }
    forall k | 1 <= k < |st.cleared|
      ensures 0 <= next.cleared[k] < |s| && ContainedIn(s[next.cleared[k]], next.out)
    {
      assert next.cleared[k] == st.cleared[k];
      ContainedInExtend(s[st.cleared[k]], st.out, next.out);
    }
  }

  /** Entry `i`, and each partner in `js`, lies inside one of the entries
      `Merged(s, i, js)` appends. */
  lemma PairsContained(s: seq<Interval>, i: nat, js: seq<nat>, out: seq<Interval>)
    requires i < |s| && SortedBy(s, LexLe) && |js| > 0
    requires forall k :: 0 <= k < |js| ==> i < js[k] < |s| && Reaches(s[js[k]], s[i].end)
    ensures forall k :: 0 <= k < |ClearPairs(i, js)| ==>
      0 <= ClearPairs(i, js)[k] < |s| && ContainedIn(s[ClearPairs(i, js)[k]], out + Merged(s, i, js))
  {
    var e := Merged(s, i, js);
    var cp := ClearPairs(i, js);
    MergedEntries(s, i, js);
    ClearPairsHolds(i, js);
    var o := out + e;
    assert o[|out|] == Interval(s[i].start, s[js[0]].end);
    forall k | 0 <= k < |cp|
      ensures 0 <= cp[k] < |s| && ContainedIn(s[cp[k]], o)
    {
      var c := cp[k];
      if c != i {
        var m :| 0 <= m < |js| && js[m] == c;
        assert LexLe(s[i], s[c]);
        assert o[|out| + m] == Interval(s[i].start, s[c].end);
      }
    }
  }

  /** An index with partners: its own entry and every index it clears end up
      inside an emitted entry. */
  lemma MergeAccounted(s: seq<Interval>, i: nat, st: State)
    requires i < |s| && |st.cleared| > 0 && SortedBy(s, LexLe)
    requires i != MaxOf(st.cleared) && |Partners(s, i, i + 1)| > 0
    ensures ContainedIn(s[i], Step(s, i, st).out)
    ensures forall k :: |st.cleared| <= k < |Step(s, i, st).cleared| ==>
      0 <= Step(s, i, st).cleared[k] < |s| && ContainedIn(s[Step(s, i, st).cleared[k]], Step(s, i, st).out)
  {
    var next := Step(s, i, st);
    var js := Partners(s, i, i + 1);
    var cp := ClearPairs(i, js);
    assert forall k :: 0 <= k < |js| ==> i < js[k] < |s| && Reaches(s[js[k]], s[i].end) by {
      PartnersExactly(s, i, i + 1);
    }
    assert next == State(st.out + Merged(s, i, js), st.cleared + cp);
    assert forall k :: 0 <= k < |cp| ==> 0 <= cp[k] < |s| && ContainedIn(s[cp[k]], next.out) by {
      PairsContained(s, i, js, st.out);
    }
    assert cp[0] == i;
    forall k | |st.cleared| <= k < |next.cleared|
      ensures 0 <= next.cleared[k] < |s| && ContainedIn(s[next.cleared[k]], next.out)
    {
      assert next.cleared[k] == cp[k - |st.cleared|];
    }
  }

  /** One iteration keeps `Accounted` when the seed is below every index. */
  lemma StepAccounted(s: seq<Interval>, i: nat, st: State)
    requires i < |s| && SortedBy(s, LexLe)
    requires Accounted(s, i, st) && st.cleared[0] < 0
    ensures Accounted(s, i + 1, Step(s, i, st))
    ensures Step(s, i, st).cleared[0] == st.cleared[0]
  {
    var next := Step(s, i, st);
    StepAppends(s, i, st);
    AccountedCarried(s, i, st, next);
    assert next.cleared[0] == next.cleared[..|st.cleared|][0];
    if i == MaxOf(st.cleared) {
      MaxOfIsMax(st.cleared);
      var k :| 0 <= k < |st.cleared| && st.cleared[k] == i;
      assert k != 0;
    } else if |Partners(s, i, i + 1)| == 0 {
      assert next.out[|st.out|] == s[i];
    } else {
      MergeAccounted(s, i, st);
    }
  }

  /** The iteration for index `n - 1` keeps `Accounted`, stated on the walk. */
  lemma WalkStepAccounted(s: seq<Interval>, n: nat, seed: int)
    requires 0 < n <= |s| && SortedBy(s, LexLe) && seed < 0
    requires Accounted(s, n - 1, Walk(s, n - 1, seed)) && Walk(s, n - 1, seed).cleared[0] == seed
    ensures Accounted(s, n, Walk(s, n, seed)) && Walk(s, n, seed).cleared[0] == seed
  {
    var st := Walk(s, n - 1, seed);
    StepAccounted(s, n - 1, st);
    assert Walk(s, n, seed) == Step(s, n - 1, st);
  }

  /** The whole walk keeps `Accounted` when the seed is below every index. */
  lemma {:induction false} WalkAccounted(s: seq<Interval>, n: nat, seed: int)
    requires n <= |s| && SortedBy(s, LexLe) && seed < 0
    ensures Accounted(s, n, Walk(s, n, seed))
    ensures Walk(s, n, seed).cleared[0] == seed
  {
    if n == 0 {
      assert Walk(s, n, seed) == State([], [seed]);
    } else {
      WalkAccounted(s, n - 1, seed);
      WalkStepAccounted(s, n, seed);
    }
  }

  /** The walk over `input` sorted, with `cleared_indexes` first holding `seed`. */
  function MergeWithSeed(input: seq<Interval>, seed: int): seq<Interval> {
    var s := SortIntervals(input);
    Walk(s, |s|, seed).out
  }

  /** `merge_overlaps` as written: `cleared_indexes` starts as `[1]`. */
  function MergeOverlaps(input: seq<Interval>): seq<Interval> {
    MergeWithSeed(input, 1)
  }

  /** `merge_overlaps` with `cleared_indexes` seeded by -1, a value that is no index. */
  function MergeOverlapsIntended(input: seq<Interval>): seq<Interval> {
    MergeWithSeed(input, -1)
  }

  /** Day `day` falls inside one of the entries of `out`. */
  predicate Covers(out: seq<Interval>, day: int) {
    exists k :: 0 <= k < |out| && out[k].start <= day <= out[k].end
  }

  /** A day inside an emittable entry is inside entry `a` or entry `b` of it. */
  lemma EmittableCoversOnlyInput(s: seq<Interval>, o: Interval, day: int)
    requires Emittable(s, o)
    requires o.start <= day <= o.end
    ensures Covers(s, day)
  {
    var a, b :| 0 <= a <= b < |s| && o.start == s[a].start && o.end == s[b].end
      && (a == b || Reaches(s[b], s[a].end));
    if day <= s[a].end {
      assert s[a].start <= day <= s[a].end;
    } else {
      assert s[b].start <= day <= s[b].end;
    }
  }

  /** Sorting keeps the covered days. */
  lemma SortKeepsCover(input: seq<Interval>, day: int)
    ensures Covers(SortIntervals(input), day) <==> Covers(input, day)
  {
    var s := SortIntervals(input);
    if Covers(s, day) {
      var k :| 0 <= k < |s| && s[k].start <= day <= s[k].end;
      assert s[k] in multiset(input);
      var m :| 0 <= m < |input| && input[m] == s[k];
    }
    if Covers(input, day) {
      var k :| 0 <= k < |input| && input[k].start <= day <= input[k].end;
      assert input[k] in multiset(s);
      var m :| 0 <= m < |s| && s[m] == input[k];
    }
  }

  /** Whatever the seed, every day the result covers is covered by the input. */
  lemma MergeCoversOnlyInput(input: seq<Interval>, seed: int, day: int)
    ensures Covers(MergeWithSeed(input, seed), day) ==> Covers(input, day)
  {
    var s := SortIntervals(input);
    var out := MergeWithSeed(input, seed);
    if Covers(out, day) {
      var k :| 0 <= k < |out| && out[k].start <= day <= out[k].end;
      WalkEmittable(s, |s|, seed);
      EmittableCoversOnlyInput(s, out[k], day);
      SortKeepsCover(input, day);
    }
  }

  /** With a seed below every index, every day the input covers is covered by
      the result. */
  lemma MergeCoversAllInput(input: seq<Interval>, seed: int, day: int)
    requires seed < 0
    ensures Covers(input, day) ==> Covers(MergeWithSeed(input, seed), day)
  {
    var s := SortIntervals(input);
    var out := MergeWithSeed(input, seed);
    SortKeepsCover(input, day);
    if Covers(s, day) {
      var c :| 0 <= c < |s| && s[c].start <= day <= s[c].end;
      WalkAccounted(s, |s|, seed);
      assert ContainedIn(s[c], out);
      var k :| 0 <= k < |out| && out[k].start <= s[c].start && s[c].end <= out[k].end;
      assert out[k].start <= day <= out[k].end;
    }
  }

  /** The corrected merge covers exactly the days the input covers. */
  lemma MergeIntendedKeepsCover(input: seq<Interval>, day: int)
    ensures Covers(MergeOverlapsIntended(input), day) <==> Covers(input, day)
  {
    MergeCoversOnlyInput(input, -1, day);
    MergeCoversAllInput(input, -1, day);
  }

  /** The merge as written never covers a day the input leaves uncovered. */
  lemma MergeOverlapsCoversOnlyInput(input: seq<Interval>, day: int)
    ensures Covers(MergeOverlaps(input), day) ==> Covers(input, day)
  {
    MergeCoversOnlyInput(input, 1, day);
  }

  /** Entry `o` runs forwards: `start <= end`. */
  predicate Forwards(o: Interval) {
    o.start <= o.end
  }

  /** An emittable entry of a list of forward entries runs forwards, and its
      start and its end are a start and an end found in that list. */
  lemma EmittableForwards(s: seq<Interval>, o: Interval)
    requires Emittable(s, o)
    requires forall k :: 0 <= k < |s| ==> Forwards(s[k])
    ensures Forwards(o)
    ensures exists a :: 0 <= a < |s| && s[a].start == o.start
    ensures exists b :: 0 <= b < |s| && s[b].end == o.end
  {
    var a, b :| 0 <= a <= b < |s| && o.start == s[a].start && o.end == s[b].end
      && (a == b || Reaches(s[b], s[a].end));
    assert Forwards(s[a]);
  }

  /** When every input entry runs forwards, so does every entry of the result,
      and each result entry takes its start and its end from input entries. */
  lemma MergeKeepsForwards(input: seq<Interval>, seed: int)
    requires forall k :: 0 <= k < |input| ==> Forwards(input[k])
    ensures forall k :: 0 <= k < |MergeWithSeed(input, seed)| ==> Forwards(MergeWithSeed(input, seed)[k])
    ensures forall k :: 0 <= k < |MergeWithSeed(input, seed)| ==>
      (exists a :: 0 <= a < |input| && input[a].start == MergeWithSeed(input, seed)[k].start)
    ensures forall k :: 0 <= k < |MergeWithSeed(input, seed)| ==>
      (exists b :: 0 <= b < |input| && input[b].end == MergeWithSeed(input, seed)[k].end)
  {
    var s := SortIntervals(input);
    var out := MergeWithSeed(input, seed);
    forall c | 0 <= c < |s|
      ensures Forwards(s[c]) && s[c] in input
    {
      assert s[c] in multiset(input);
    }
    WalkEmittable(s, |s|, seed);
    forall k | 0 <= k < |out|
      ensures Forwards(out[k])
      ensures exists a :: 0 <= a < |input| && input[a].start == out[k].start
      ensures exists b :: 0 <= b < |input| && input[b].end == out[k].end
    {
      EmittableForwards(s, out[k]);
      var a :| 0 <= a < |s| && s[a].start == out[k].start;
      var b :| 0 <= b < |s| && s[b].end == out[k].end;
      var a' :| 0 <= a' < |input| && input[a'] == s[a];
      var b' :| 0 <= b' < |input| && input[b'] == s[b];
    }
  }

  /** The result lists its entries in nondecreasing order of start. */
  lemma MergeOrdered(input: seq<Interval>, seed: int)
    ensures StartsNondecreasing(MergeWithSeed(input, seed))
  {
    var s := SortIntervals(input);
    WalkOrdered(s, |s|, seed);
  }

  /** The result depends only on which entries the input holds, not on their order. */
  lemma MergeIgnoresInputOrder(a: seq<Interval>, b: seq<Interval>, seed: int)
    requires multiset(a) == multiset(b)
    ensures MergeWithSeed(a, seed) == MergeWithSeed(b, seed)
  {
    LexLeIsTotalOrder();
    SortIgnoresOrder(a, b, LexLe);
  }

  /** The list the module-level sample merges. */
  function Sample(): seq<Interval> {
    [Interval(4, 15), Interval(18, 21), Interval(28, 30), Interval(35, 200), Interval(20, 25)]
  }

  /** The sample, sorted. */
  function SortedSample(): seq<Interval> {
    [Interval(4, 15), Interval(18, 21), Interval(20, 25), Interval(28, 30), Interval(35, 200)]
  }

  lemma SortSample()
    ensures SortIntervals(Sample()) == SortedSample()
  {
    var t := SortedSample();
    assert SortedBy(t, LexLe) by {
      forall i, j | 0 <= i < j < |t|
        ensures LexLe(t[i], t[j])
      {
      }
    }
    assert multiset(t) == multiset(Sample());
    LexLeIsTotalOrder();
    SortedPermutationsEqual(SortIntervals(Sample()), t, LexLe);
  }

  /** No entry from `from` on contains the end of entry `i`: the inner loop
      never appends. */
  lemma {:induction false} NoPartners(s: seq<Interval>, i: nat, from: nat)
    requires i < |s| && from <= |s|
    requires forall j :: from <= j < |s| ==> !Reaches(s[j], s[i].end)
    ensures Partners(s, i, from) == []
    decreases |s| - from
  {
    if from < |s| {
      NoPartners(s, i, from + 1);
    }
  }

  /** From `from` on, only entry `j` contains the end of entry `i`. */
  lemma {:induction false} OnePartner(s: seq<Interval>, i: nat, from: nat, j: nat)
    requires i < |s| && from <= j < |s| && Reaches(s[j], s[i].end)
    requires forall c :: from <= c < |s| && c != j ==> !Reaches(s[c], s[i].end)
    ensures Partners(s, i, from) == [j]
    decreases j - from
  {
    if from == j {
      NoPartners(s, i, j + 1);
    } else {
      OnePartner(s, i, from + 1, j);
    }
  }

  /** One iteration of the walk, stated for index `n - 1`. */
  lemma WalkUnfold(s: seq<Interval>, n: nat, seed: int)
    requires 0 < n <= |s|
    ensures Walk(s, n, seed) == Step(s, n - 1, Walk(s, n - 1, seed))
  {
  }

  /** An index that emits its own entry. */
  lemma StepLone(s: seq<Interval>, i: nat, st: State)
    requires i < |s| && |st.cleared| > 0
    requires i != MaxOf(st.cleared) && Partners(s, i, i + 1) == []
    ensures Step(s, i, st) == State(st.out + [s[i]], st.cleared)
  {
  }

  /** An index with exactly one partner `j`. */
  lemma StepOnePartner(s: seq<Interval>, i: nat, j: nat, st: State)
    requires i < j < |s| && |st.cleared| > 0
    requires i != MaxOf(st.cleared) && Partners(s, i, i + 1) == [j]
    ensures Step(s, i, st) == State(st.out + [Interval(s[i].start, s[j].end)], st.cleared + [i, j])
  {
    assert Merged(s, i, [j]) == [Interval(s[i].start, s[j].end)];
    assert ClearPairs(i, [j]) == [i, j];
  }

  /** The sorted sample entry by entry. */
  predicate IsSortedSample(s: seq<Interval>) {
    && |s| == 5
    && s[0] == Interval(4, 15) && s[1] == Interval(18, 21) && s[2] == Interval(20, 25)
    && s[3] == Interval(28, 30) && s[4] == Interval(35, 200)
  }

  lemma WalkSampleAsWritten(s: seq<Interval>)
    requires IsSortedSample(s)
    ensures Walk(s, 5, 1).out == [s[0], s[2], s[3], s[4]]
  {
    NoPartners(s, 0, 1);
    NoPartners(s, 2, 3);
    NoPartners(s, 3, 4);
    NoPartners(s, 4, 5);
    var w0 := Walk(s, 0, 1);
    assert w0 == State([], [1]);
    WalkUnfold(s, 1, 1);
    StepLone(s, 0, w0);
    var w1 := Walk(s, 1, 1);
    assert w1 == State([s[0]], [1]);
    WalkUnfold(s, 2, 1);
    var w2 := Walk(s, 2, 1);
    assert w2 == w1;
    WalkUnfold(s, 3, 1);
    StepLone(s, 2, w2);
    var w3 := Walk(s, 3, 1);
    assert w3 == State([s[0], s[2]], [1]);
    WalkUnfold(s, 4, 1);
    StepLone(s, 3, w3);
    var w4 := Walk(s, 4, 1);
    assert w4 == State([s[0], s[2], s[3]], [1]);
    WalkUnfold(s, 5, 1);
    StepLone(s, 4, w4);
  }

  lemma WalkSampleIntended(s: seq<Interval>)
    requires IsSortedSample(s)
    ensures Walk(s, 5, -1).out == [s[0], Interval(18, 25), s[3], s[4]]
  {
    NoPartners(s, 0, 1);
    OnePartner(s, 1, 2, 2);
    NoPartners(s, 3, 4);
    NoPartners(s, 4, 5);
    var w0 := Walk(s, 0, -1);
    assert w0 == State([], [-1]);
    WalkUnfold(s, 1, -1);
    StepLone(s, 0, w0);
    var w1 := Walk(s, 1, -1);
    assert w1 == State([s[0]], [-1]);
    WalkUnfold(s, 2, -1);
    assert MaxOf([-1]) == -1;
    StepOnePartner(s, 1, 2, w1);
    var w2 := Walk(s, 2, -1);
    assert w2 == State([s[0], Interval(18, 25)], [-1, 1, 2]);
    WalkUnfold(s, 3, -1);
    assert MaxOf([-1, 1, 2]) == 2;
    var w3 := Walk(s, 3, -1);
    assert w3 == w2;
    WalkUnfold(s, 4, -1);
    StepLone(s, 3, w3);
    var w4 := Walk(s, 4, -1);
    assert w4 == State([s[0], Interval(18, 25), s[3]], [-1, 1, 2]);
    WalkUnfold(s, 5, -1);
    StepLone(s, 4, w4);
  }

  /** The seed 1 does not always skip index 1: once index 0 clears an index
      above 1, the maximum moves past 1, index 1 emits its own entry, and the
      index cleared is skipped instead. */
  lemma WalkSeedPassedOver(s: seq<Interval>)
    requires s == [Interval(1, 5), Interval(2, 3), Interval(4, 8)]
    ensures Walk(s, 3, 1).out == [Interval(1, 8), Interval(2, 3)]
  {
    OnePartner(s, 0, 1, 2);
    NoPartners(s, 1, 2);
    var w0 := Walk(s, 0, 1);
    assert w0 == State([], [1]);
    WalkUnfold(s, 1, 1);
    StepOnePartner(s, 0, 2, w0);
    var w1 := Walk(s, 1, 1);
    assert w1 == State([Interval(1, 8)], [1, 0, 2]);
    WalkUnfold(s, 2, 1);
    assert MaxOf([1, 0, 2]) == 2;
    StepLone(s, 1, w1);
    var w2 := Walk(s, 2, 1);
    assert w2 == State([Interval(1, 8), Interval(2, 3)], [1, 0, 2]);
    WalkUnfold(s, 3, 1);
  }

  /** The seed 1 also skips index 1 when index 0 merged it: the skip does not
      lose coverage then. */
  lemma WalkSeedSkipsMerged(s: seq<Interval>)
    requires s == [Interval(1, 5), Interval(2, 6)]
    ensures Walk(s, 2, 1).out == [Interval(1, 6)]
  {
    OnePartner(s, 0, 1, 1);
    var w0 := Walk(s, 0, 1);
    assert w0 == State([], [1]);
    WalkUnfold(s, 1, 1);
    StepOnePartner(s, 0, 1, w0);
    var w1 := Walk(s, 1, 1);
    assert w1 == State([Interval(1, 6)], [1, 0, 1]);
    WalkUnfold(s, 2, 1);
    assert MaxOf([1, 0, 1]) == 1;
  }

  /** As written, the sample loses `[18, 21]`: index 1 equals the seed, so it
      is skipped. */
  lemma SampleAsWritten(input: seq<Interval>)
    requires input == Sample()
    ensures MergeOverlaps(input) ==
      [Interval(4, 15), Interval(20, 25), Interval(28, 30), Interval(35, 200)]
  {
    SortSample();
    WalkSampleAsWritten(SortIntervals(input));
  }

  /** The corrected merge gives the result the sample expects. */
  lemma SampleIntended(input: seq<Interval>)
    requires input == Sample()
    ensures MergeOverlapsIntended(input) ==
      [Interval(4, 15), Interval(18, 25), Interval(28, 30), Interval(35, 200)]
  {
    SortSample();
    WalkSampleIntended(SortIntervals(input));
  }

  /** Day 18 is covered by the sample but not by the merge as written. */
  lemma SampleLosesDay18(input: seq<Interval>)
    requires input == Sample()
    ensures Covers(input, 18)
    ensures !Covers(MergeOverlaps(input), 18)
  {
    assert input[1].start <= 18 <= input[1].end;
    SampleAsWritten(input);
    AsWrittenResultMisses18(MergeOverlaps(input));
  }

  lemma AsWrittenResultMisses18(out: seq<Interval>)
    requires out == [Interval(4, 15), Interval(20, 25), Interval(28, 30), Interval(35, 200)]
    ensures !Covers(out, 18)
    ensures Covers([Interval(4, 15), Interval(18, 25), Interval(28, 30), Interval(35, 200)], 18)
  {
    var expected := [Interval(4, 15), Interval(18, 25), Interval(28, 30), Interval(35, 200)];
    assert expected[1].start <= 18 <= expected[1].end;
    forall k | 0 <= k < |out|
      ensures 18 < out[k].start || out[k].end < 18
    {
    }
  }
}

=== FILE: kth_smallest.dfy ===
/**
 `kth_smallest` from coding_problems/kth_smallest.py: puts every number into a
 `PriorityQueue(k + 1)` and takes the smallest out whenever the queue is full,
 then takes the smallest out once more and returns it. The queue therefore
 keeps the largest numbers, and the result is the k-th largest, not the k-th
 smallest.

 Python's `PriorityQueue(maxsize)` is full when `0 < maxsize <= qsize()`, so
 for `k < 0` it never fills and keeps everything. When the queue is empty at
 the end (no numbers, or `k == 0`), the final `get()` blocks forever; the
 model returns `None` there.
 */
module KthSmallest {
  import opened Wrappers

  /** `PriorityQueue(maxsize).full()` with `size` items queued. */
  predicate Full(maxsize: int, size: nat) {
    0 < maxsize <= size
  }

  /** The position of a smallest item: the one `get()` takes out. */
  function MinIndex(q: seq<int>): (k: nat)
    requires |q| > 0
    ensures k < |q|
    ensures forall j :: 0 <= j < |q| ==> q[k] <= q[j]
  {
    if |q| == 1 then 0
    else
      var k := MinIndex(q[..|q| - 1]);
      if q[|q| - 1] < q[k] then |q| - 1 else k
  }

  function RemoveAt(q: seq<int>, k: nat): (r: seq<int>)
    requires k < |q|
    ensures multiset(r) == multiset(q) - multiset{q[k]}
    ensures |r| == |q| - 1
  {
    assert q == q[..k] + [q[k]] + q[k + 1..];
    q[..k] + q[k + 1..]
  }

  /** How many numbers the queue holds after `i` of them have been put in. */
  function Retained(i: nat, k: int): nat {
    if k < 0 || i <= k then i else k
  }

  /** The rank the result has among the numbers: `k`, capped at the count of
      numbers, and all of them when `k < 0`. */
  function Rank(nums: seq<int>, k: int): nat {
    Retained(|nums|, k)
  }

  /** `v` is the `rank`-th largest of `nums`: some `rank` of the numbers, `v`
      among them, are all at least `v`, and all the others are at most `v`. */
  ghost predicate IsKthLargest(nums: seq<int>, rank: nat, v: int) {
    exists top: multiset<int> :: IsTop(multiset(nums), top, rank, v)
  }

  /** `top` is a choice of `rank` of the numbers, `v` its least, with nothing
      left out above `v`. */
  ghost predicate IsTop(all: multiset<int>, top: multiset<int>, rank: nat, v: int) {
    && top <= all
    && |top| == rank
    && v in top
    && (forall x :: x in top ==> v <= x)
    && (forall y :: y in all - top ==> y <= v)
  }

  /** One round of the loop keeps the queue above everything taken out. */
  lemma PutGetKeepsOrder(q: seq<int>, num: int, dropped: multiset<int>, q': seq<int>, m: nat)
    requires forall d, x :: d in dropped && x in q ==> d <= x
    requires q' == q + [num] && m == MinIndex(q')
    ensures forall d, x :: d in dropped + multiset{q'[m]} && x in RemoveAt(q', m) ==> d <= x
  {
    var r := RemoveAt(q', m);
    forall d, x | d in dropped + multiset{q'[m]} && x in r
      ensures d <= x
    {
      assert x in multiset(r);
      assert x in q';
      if d in dropped && x !in q {
        assert x == num;
        assert multiset(q')[num] == 1;
        assert q'[m] in q;
      }
    }
  }

  /** One pass of the loop body: `put(num)`, then `get()` if the queue is full. */
  function PutThenTrim(q: seq<int>, num: int, maxsize: int): (r: seq<int>)
    ensures |r| == if Full(maxsize, |q| + 1) then |q| else |q| + 1
    ensures multiset(r) <= multiset(q) + multiset{num}
    ensures !Full(maxsize, |q| + 1) ==> multiset(r) == multiset(q) + multiset{num}
    ensures forall x, y :: x in multiset(q) + multiset{num} - multiset(r) && y in r ==> x <= y
  {
    var q' := q + [num];
    assert multiset(q') == multiset(q) + multiset{num};
    if Full(maxsize, |q'|) then
      var m := MinIndex(q');
      var r := RemoveAt(q', m);
      assert multiset(q') - multiset(r) == multiset{q'[m]};
      assert forall y :: y in r ==> y in multiset(q');
      r
    else
      q'
  }

  /** What holds after `i` rounds: the queue and the numbers taken out
      together are the first `i` numbers, the queue has its expected size, and
      nothing taken out exceeds anything still queued. */
  ghost predicate Invariant(nums: seq<int>, k: int, i: nat, q: seq<int>, dropped: multiset<int>)
    requires i <= |nums|
  {
    && multiset(q) + dropped == multiset(nums[..i])
    && |q| == Retained(i, k)
    && |q| + |dropped| == i
    && (forall d, x :: d in dropped && x in q ==> d <= x)
  }

  /** What one round does to the queue and to the numbers taken out, apart
      from where the numbers come from. */
  ghost predicate RoundResult(q: seq<int>, dropped: multiset<int>, num: int, k: int, i: nat,
                              r: seq<int>, dropped': multiset<int>)
  {
    && multiset(r) + dropped' == multiset(q) + dropped + multiset{num}
    && |r| == Retained(i + 1, k)
    && |r| + |dropped'| == i + 1
    && (forall d, x :: d in dropped' && x in r ==> d <= x)
  }

  lemma FullRound(q: seq<int>, dropped: multiset<int>, num: int, k: int, i: nat)
    returns (dropped': multiset<int>)
    requires |q| == Retained(i, k) && |q| + |dropped| == i
    requires forall d, x :: d in dropped && x in q ==> d <= x
    requires Full(k + 1, |q| + 1)
    ensures RoundResult(q, dropped, num, k, i, PutThenTrim(q, num, k + 1), dropped')
  {
    var q' := q + [num];
    var m := MinIndex(q');
    var r := PutThenTrim(q, num, k + 1);
    dropped' := dropped + multiset{q'[m]};
    assert multiset(r) + dropped' == multiset(q) + dropped + multiset{num} by {
      assert r == RemoveAt(q', m);
      assert multiset(q') == multiset(q) + multiset{num};
    }
    assert |r| == Retained(i + 1, k) && |r| + |dropped'| == i + 1 by {
      assert |r| == |q|;
    }
    assert forall d, x :: d in dropped' && x in r ==> d <= x by {
      assert r == RemoveAt(q', m);
      PutGetKeepsOrder(q, num, dropped, q', m);
    }
  }

  lemma OpenRound(q: seq<int>, dropped: multiset<int>, num: int, k: int, i: nat)
    requires |q| == Retained(i, k) && |q| + |dropped| == i
    requires !Full(k + 1, |q| + 1)
    ensures RoundResult(q, dropped, num, k, i, PutThenTrim(q, num, k + 1), dropped)
  {
    assert |dropped| == 0;
    assert multiset(q + [num]) == multiset(q) + multiset{num};
  }

  lemma RoundKeepsInvariant(nums: seq<int>, k: int, i: nat, q: seq<int>, dropped: multiset<int>)
    returns (dropped': multiset<int>)
    requires i < |nums| && Invariant(nums, k, i, q, dropped)
    ensures Invariant(nums, k, i + 1, PutThenTrim(q, nums[i], k + 1), dropped')
  {
    assert multiset(nums[..i + 1]) == multiset(nums[..i]) + multiset{nums[i]} by {
      assert nums[..i + 1] == nums[..i] + [nums[i]];
    }
    if Full(k + 1, |q| + 1) {
      dropped' := FullRound(q, dropped, nums[i], k, i);
    } else {
      dropped' := dropped;
      OpenRound(q, dropped, nums[i], k, i);
    }
  }

  /** At the end the queue is empty exactly when there were no numbers or
      `k` is 0. */
  lemma FinalQueueEmpty(nums: seq<int>, k: int, i: nat, q: seq<int>, dropped: multiset<int>)
    requires i == |nums| && Invariant(nums, k, i, q, dropped)
    ensures |q| == 0 <==> |nums| == 0 || k == 0
  {
  }

  /** At the end, the least queued number has the rank of the queue's size. */
  lemma FinalQueueRanks(nums: seq<int>, k: int, i: nat, q: seq<int>, dropped: multiset<int>)
    requires i == |nums| && Invariant(nums, k, i, q, dropped) && |q| > 0
    ensures IsKthLargest(nums, Rank(nums, k), q[MinIndex(q)])
  {
    assert nums[..|nums|] == nums;
    var m := MinIndex(q);
    assert IsTop(multiset(nums), multiset(q), Rank(nums, k), q[m]) by {
      assert multiset(nums) - multiset(q) == dropped;
      assert q[m] in q;
      forall x | x in multiset(q)
        ensures q[m] <= x
      {
        assert x in q;
      }
    }
  }

  /** The loop of `kth_smallest`: every number is put in, and the smallest is
      taken out whenever the queue is full. Returns the queue left at the end,
      with the numbers taken out as a ghost. */
  method FillQueue(nums: seq<int>, k: int) returns (q: seq<int>, ghost dropped: multiset<int>)
    ensures |q| == Retained(|nums|, k)
    ensures multiset(q) <= multiset(nums)
    ensures Invariant(nums, k, |nums|, q, dropped)
  {
    var maxsize := k + 1;
    q := [];
    dropped := multiset{};
    var i := 0;
    while i < |nums|
      invariant 0 <= i <= |nums|
      invariant Invariant(nums, k, i, q, dropped)
    {
      dropped := RoundKeepsInvariant(nums, k, i, q, dropped);
      q := PutThenTrim(q, nums[i], maxsize);
      i := i + 1;
    }
    assert nums[..i] == nums;
  }

  /** `kth_smallest(nums, k)`: `Some` of the value the final `get()` returns,
      or `None` when that `get()` would block on an empty queue. */
  method KthSmallestSelect(nums: seq<int>, k: int) returns (result: Option<int>)
    ensures result.None? <==> |nums| == 0 || k == 0
    ensures result.Some? ==> IsKthLargest(nums, Rank(nums, k), result.value)
  {
    var q, dropped := FillQueue(nums, k);
    FinalQueueEmpty(nums, k, |nums|, q, dropped);
    if |q| == 0 {
      return None;
    }
    FinalQueueRanks(nums, k, |nums|, q, dropped);
    return Some(q[MinIndex(q)]);
  }

  /** A sub-multiset as large as the whole is the whole. */
  lemma SameSizeSubset(a: multiset<int>, b: multiset<int>)
    requires a <= b && |a| == |b|
    ensures a == b
  {
    assert b == a + (b - a);
  }

  /** A choice of numbers all above `v` sits inside any top choice whose least
      element is `v`. */
  lemma AboveInsideTop(all: multiset<int>, top: multiset<int>, v: int, other: multiset<int>)
    requires top <= all && forall y :: y in all - top ==> y <= v
    requires other <= all && forall x :: x in other ==> v < x
    ensures other <= top
  {
    forall x
      ensures other[x] <= top[x]
    {
      if x in other {
        assert x !in all - top;
      }
    }
  }

  /** The rank-th largest is unique. */
  lemma KthLargestUnique(nums: seq<int>, rank: nat, a: int, b: int)
    requires IsKthLargest(nums, rank, a) && IsKthLargest(nums, rank, b)
    ensures a == b
  {
    var all := multiset(nums);
    var ta :| IsTop(all, ta, rank, a);
    var tb :| IsTop(all, tb, rank, b);
    if a < b {
      AboveInsideTop(all, ta, a, tb);
      SameSizeSubset(tb, ta);
    } else if b < a {
      AboveInsideTop(all, tb, b, ta);
      SameSizeSubset(ta, tb);
    }
  }

  /** When `k` reaches the count of numbers, nothing is ever taken out early,
      and the result is the smallest number. */
  lemma WholeRankIsMinimum(nums: seq<int>, v: int)
    requires IsKthLargest(nums, |nums|, v)
    ensures v in nums
    ensures forall j :: 0 <= j < |nums| ==> v <= nums[j]
  {
    var all := multiset(nums);
    var top :| IsTop(all, top, |nums|, v);
    SameSizeSubset(top, all);
    forall j | 0 <= j < |nums|
      ensures v <= nums[j]
    {
      assert nums[j] in top;
    }
  }

  /** The module-level sample: with `k == 7` all seven numbers stay queued and
      the result is their minimum, 0. */
  method Sample() returns (result: Option<int>)
    ensures result == Some(0)
  {
    var nums := [8, 3, 0, 5, 1, 4, 9];
    result := KthSmallestSelect(nums, 7);
    assert Rank(nums, 7) == 7;
    WholeRankIsMinimum(nums, result.value);
    assert 0 in nums;
    assert result.value <= nums[2];
  }

  /** Splitting the numbers into `top`, whose least is `v`, and a `rest` no
      larger than `v` makes `v` the `|top|`-th largest. */
  lemma SplitIsTop(all: multiset<int>, top: multiset<int>, rest: multiset<int>, v: int)
    requires all == top + rest && v in top
    requires forall x :: x in top ==> v <= x
    requires forall y :: y in rest ==> y <= v
    ensures IsTop(all, top, |top|, v)
  {
    assert all - top == rest;
  }

  /** The sample's numbers are its top two, 8 and 9, and five smaller ones. */
  lemma SampleSplit(nums: seq<int>)
    requires nums == [8, 3, 0, 5, 1, 4, 9]
    ensures multiset(nums) == multiset{8, 9} + multiset{3, 0, 5, 1, 4}
  {
    assert nums == [8] + [3, 0, 5, 1, 4] + [9];
  }

  /** 8 is the second largest of the sample: the top two are 9 and 8. */
  lemma SampleSecondLargest(nums: seq<int>)
    requires nums == [8, 3, 0, 5, 1, 4, 9]
    ensures IsKthLargest(nums, 2, 8)
  {
    SampleSplit(nums);
    SplitIsTop(multiset(nums), multiset{8, 9}, multiset{3, 0, 5, 1, 4}, 8);
  }

  /** The sample with `k == 2`: the queue keeps 9 and 8, so the result is 8,
      the second largest number, not the second smallest. */
  method SampleSecond() returns (result: Option<int>)
    ensures result == Some(8)
  {
    var nums := [8, 3, 0, 5, 1, 4, 9];
    result := KthSmallestSelect(nums, 2);
    assert Rank(nums, 2) == 2;
    SampleSecondLargest(nums);
    KthLargestUnique(nums, 2, result.value, 8);
  }
}

=== FILE: least_occurring.dfy ===
/**
 `solution` from coding_problems/findleast_occuring_number.py: counts the
 numbers with a `defaultdict(int)`, keeps the keys whose count is 1, and
 returns them sorted ascending.
 */
module LeastOccurring {
  import opened Sorting
  import opened Frequency

  /** The order `sorted` uses on integers. */
  predicate IntLe(a: int, b: int) {
    a <= b
  }

  lemma IntLeIsTotalOrder()
    ensures IsTotalOrder(IntLe)
  {
  }

  /** `[x[0] for x in dic.items() if x[1] == 1]`: the keys, in the order given,
      whose count is 1. */
  function Singles(keys: seq<int>, dic: map<int, nat>): (r: seq<int>)
    requires forall k :: k in keys ==> k in dic
    requires Distinct(keys)
    ensures forall x :: x in r <==> x in keys && dic[x] == 1
    ensures Distinct(r)
    ensures |r| <= |keys|
  {
    if |keys| == 0 then []
    else
      var p := keys[..|keys| - 1];
      var k := keys[|keys| - 1];
      assert keys == p + [k];
      assert Distinct(p);
      var rest := Singles(p, dic);
      if dic[k] == 1 then rest + [k] else rest
  }

  /** The numbers that occur exactly once, ascending, each listed once. */
  function Solution(numbers: seq<int>): (r: seq<int>)
    ensures forall x :: x in r <==> multiset(numbers)[x] == 1
    ensures forall i, j :: 0 <= i < j < |r| ==> r[i] < r[j]
    ensures |r| <= |numbers|
  {
    KeysListed(numbers);
    KeyOrderListsElements(numbers);
    var once := Singles(KeyOrder(numbers), Counts(numbers));
    SinglesOccurOnce(numbers, once);
    IntLeIsTotalOrder();
    var r := SortBy(once, IntLe);
    SortedDistinctIncreasing(once, r);
    r
  }

  /** The filtered keys are exactly the numbers occurring once. */
  lemma SinglesOccurOnce(numbers: seq<int>, once: seq<int>)
    requires forall k :: k in KeyOrder(numbers) <==> k in Counts(numbers)
    requires Distinct(KeyOrder(numbers))
    requires once == Singles(KeyOrder(numbers), Counts(numbers))
    ensures forall x :: x in once <==> multiset(numbers)[x] == 1
  {
    CountsAreOccurrences(numbers);
    forall x
      ensures x in once <==> multiset(numbers)[x] == 1
    {
      assert x in numbers <==> x in multiset(numbers);
    }
  }

  /** Sorting a distinct list gives a strictly increasing list of the same values. */
  lemma SortedDistinctIncreasing(once: seq<int>, r: seq<int>)
    requires Distinct(once)
    requires SortedBy(r, IntLe) && multiset(r) == multiset(once) && |r| == |once|
    ensures forall x :: x in r <==> x in once
    ensures forall i, j :: 0 <= i < j < |r| ==> r[i] < r[j]
  {
    DistinctPermutation(once, r);
    forall i, j | 0 <= i < j < |r|
      ensures r[i] < r[j]
    {
      assert IntLe(r[i], r[j]);
    }
    forall x
      ensures x in r <==> x in once
    {
      assert x in r <==> x in multiset(r);
      assert x in once <==> x in multiset(once);
    }
  }

  /** Two distinct sequences holding the same values are permutations of each other. */
  lemma {:induction false} DistinctSameElements(a: seq<int>, b: seq<int>)
    requires Distinct(a) && Distinct(b)
    requires forall x :: x in a <==> x in b
    ensures multiset(a) == multiset(b)
  {
    DistinctOccurrences(a);
    DistinctOccurrences(b);
    forall x
      ensures multiset(a)[x] == multiset(b)[x]
    {
      assert x in a <==> x in multiset(a);
      assert x in b <==> x in multiset(b);
    }
  }

  /** The result depends only on which numbers occur and how often, not on their order. */
  lemma SolutionIgnoresOrder(a: seq<int>, b: seq<int>)
    requires multiset(a) == multiset(b)
    ensures Solution(a) == Solution(b)
  {
    var ra := Solution(a);
    var rb := Solution(b);
    assert Distinct(ra) && Distinct(rb);
    DistinctSameElements(ra, rb);
    assert SortedBy(ra, IntLe) by {
      forall i, j | 0 <= i < j < |ra|
        ensures IntLe(ra[i], ra[j])
      {
      }
    }
    assert SortedBy(rb, IntLe) by {
      forall i, j | 0 <= i < j < |rb|
        ensures IntLe(rb[i], rb[j])
      {
      }
    }
    IntLeIsTotalOrder();
    SortedPermutationsEqual(ra, rb, IntLe);
  }

  /** Sample: in `[4, 1, 4, 3, 1, 7]` only 3 and 7 occur once. */
  lemma SolutionSample(numbers: seq<int>)
    requires numbers == [4, 1, 4, 3, 1, 7]
    ensures Solution(numbers) == [3, 7]
  {
    SampleOccurrences(numbers);
    IncreasingPair(Solution(numbers), 3, 7);
  }

  lemma SampleOccurrences(numbers: seq<int>)
    requires numbers == [4, 1, 4, 3, 1, 7]
    ensures forall x :: multiset(numbers)[x] == 1 <==> x == 3 || x == 7
  {
    var m := multiset(numbers);
    assert m == multiset{4, 1, 4, 3, 1, 7};
    assert m[1] == 2 && m[3] == 1 && m[4] == 2 && m[7] == 1;
    assert forall x :: x != 1 && x != 3 && x != 4 && x != 7 ==> m[x] == 0;
  }

  /** A strictly increasing list holding exactly `a` and `b`, with `a < b`, is `[a, b]`. */
  lemma IncreasingPair(r: seq<int>, a: int, b: int)
    requires a < b
    requires forall x :: x in r <==> x == a || x == b
    requires forall i, j :: 0 <= i < j < |r| ==> r[i] < r[j]
    ensures r == [a, b]
  {
    assert a in r && b in r;
    assert Distinct(r);
    forall k | 0 <= k < |r|
      ensures r[k] in {a, b}
    {
      assert r[k] in r;
    }
    DistinctWithin(r, {a, b});
    assert r[0] in r && r[1] in r;
    assert r[0] < r[1];
  }
}

=== FILE: rotate90.dfy ===
/**
 `solution` from coding_problems/roatate_90degree.py: builds `out_matrix` row
 by row from two counters, `horz` (one pair per row) and `buff` (one pair per
 read). The function prints `out_matrix`; the model returns it. A read outside
 the input is Python's `IndexError`.
 */
module Rotate90 {
  import opened Wrappers

  type Matrix = seq<seq<int>>

  datatype Error = IndexError

  function Abs(x: int): nat {
    if x < 0 then -x else x
  }

  /** Cell `(r, c)` exists in `m`. */
  predicate InRange(m: Matrix, r: int, c: int) {
    0 <= r < |m| && 0 <= c < |m[r]|
  }

  /** The read for output row `i`, column `j` lands inside `m`. That read is
      `m[abs(i + x)][abs(j - y)]` with `x == n - 1 - i - j` and `y == i + j`,
      that is `m[abs(n - 1 - j)][i]` for an input with `n` rows. */
  predicate ReadOk(m: Matrix, i: int, j: int) {
    InRange(m, Abs(|m| - 1 - j), i)
  }

  /** Every read `solution(m)` makes lands inside `m`. */
  predicate ReadsInRange(m: Matrix) {
    forall i, j :: 0 <= i < |m| && 0 <= j < |m[i]| ==> ReadOk(m, i, j)
  }

  /** `n` rows of `n` entries. */
  predicate IsSquare(m: Matrix) {
    forall i :: 0 <= i < |m| ==> |m[i]| == |m|
  }

  /** `solution(matrix)`: the output row by row, or the `IndexError` the first
      read outside the input raises. */
  method Rotate(m: Matrix) returns (result: Result<Matrix, Error>)
    ensures result.Success? <==> ReadsInRange(m)
    ensures result.Success? ==>
      && |result.value| == |m|
      && (forall i :: 0 <= i < |m| ==> |result.value[i]| == |m[i]|)
      && (forall i, j :: 0 <= i < |m| && 0 <= j < |m[i]| ==>
            ReadOk(m, i, j) && result.value[i][j] == m[Abs(|m| - 1 - j)][i])
  {
    var n := |m|;
    var horz := (n - 1, 0);
    var out: Matrix := [];
    var i := 0;
    while i < n
      invariant 0 <= i <= n
      invariant horz == (n - 1 - i, i)
      invariant |out| == i
      invariant forall a :: 0 <= a < i ==> |out[a]| == |m[a]|
      invariant forall a, b :: 0 <= a < i && 0 <= b < |m[a]| ==>
        ReadOk(m, a, b) && out[a][b] == m[Abs(n - 1 - b)][a]
    {
      var buff := horz;
      var row: seq<int> := [];
      var j := 0;
      while j < |m[i]|
        invariant 0 <= j <= |m[i]|
        invariant buff == (n - 1 - i - j, i + j)
        invariant |row| == j
        invariant forall b :: 0 <= b < j ==>
          ReadOk(m, i, b) && row[b] == m[Abs(n - 1 - b)][i]
        decreases |m[i]| - j
      {
        var x := buff.0;
        var y := buff.1;
        var newX := Abs(i + x);
        var newY := Abs(j - y);
        assert newX == Abs(n - 1 - j) && newY == i;
        if !(newX < |m| && newY < |m[newX]|) {
          assert !ReadOk(m, i, j);
          return Failure(IndexError);
        }
        row := row + [m[newX][newY]];
        buff := (x - 1, y + 1);
        j := j + 1;
      }
      out := out + [row];
      horz := (horz.0 - 1, horz.1 + 1);
      i := i + 1;
    }
    return Success(out);
  }

  /** The clockwise quarter turn of a square matrix: row `i` of the result is
      column `i` of the input, read bottom to top. */
  function RotateClockwise(m: Matrix): (r: Matrix)
    requires IsSquare(m)
    ensures |r| == |m| && IsSquare(r)
  {
    seq(|m|, i requires 0 <= i < |m| => seq(|m|, j requires 0 <= j < |m| => m[|m| - 1 - j][i]))
  }

  /** On a square input every read is in range. */
  lemma SquareReadsInRange(m: Matrix)
    requires IsSquare(m)
    ensures ReadsInRange(m)
  {
    forall i, j | 0 <= i < |m| && 0 <= j < |m[i]|
      ensures ReadOk(m, i, j)
    {
      assert |m[|m| - 1 - j]| == |m|;
    }
  }

  /** What `Rotate` computes on a square input is `RotateClockwise`. */
  lemma RotateSquareIsClockwise(m: Matrix, out: Matrix)
    requires IsSquare(m)
    requires |out| == |m| && forall i :: 0 <= i < |m| ==> |out[i]| == |m[i]|
    requires forall i, j :: 0 <= i < |m| && 0 <= j < |m[i]| ==> out[i][j] == m[Abs(|m| - 1 - j)][i]
    ensures out == RotateClockwise(m)
  {
    var r := RotateClockwise(m);
    forall i | 0 <= i < |m|
      ensures out[i] == r[i]
    {
      forall j | 0 <= j < |m|
        ensures out[i][j] == r[i][j]
      {
        assert Abs(|m| - 1 - j) == |m| - 1 - j;
      }
    }
  }

  /** Four quarter turns give the input back. */
  lemma FourTurnsIdentity(m: Matrix)
    requires IsSquare(m)
    ensures RotateClockwise(RotateClockwise(RotateClockwise(RotateClockwise(m)))) == m
  {
    var n := |m|;
    var r1 := RotateClockwise(m);
    var r2 := RotateClockwise(r1);
    var r3 := RotateClockwise(r2);
    var r4 := RotateClockwise(r3);
    forall i | 0 <= i < n
      ensures r4[i] == m[i]
    {
      forall j | 0 <= j < n
        ensures r4[i][j] == m[i][j]
      {
        calc {
          r4[i][j];
          r3[n - 1 - j][i];
          r2[n - 1 - i][n - 1 - j];
          r1[j][n - 1 - i];
          m[i][j];
        }
      }
    }
  }

  /** A three-row input whose rows have two entries: output row 2 reads
      `matrix[2][2]`, which does not exist. */
  lemma TallInputFails(m: Matrix)
    requires m == [[1, 2], [3, 4], [5, 6]]
    ensures !ReadsInRange(m)
  {
    assert !ReadOk(m, 2, 0);
  }

  /** The module-level sample. */
  method Sample() returns (result: Result<Matrix, Error>)
    ensures result == Success([[7, 4, 1], [8, 5, 2], [9, 6, 3]])
  {
    var m := [[1, 2, 3], [4, 5, 6], [7, 8, 9]];
    result := Rotate(m);
    assert IsSquare(m);
    SquareReadsInRange(m);
    var out := result.value;
    assert out[0][0] == m[2][0] && out[0][1] == m[1][0] && out[0][2] == m[0][0];
    assert out[1][0] == m[2][1] && out[1][1] == m[1][1] && out[1][2] == m[0][1];
    assert out[2][0] == m[2][2] && out[2][1] == m[1][2] && out[2][2] == m[0][2];
    assert out[0] == [7, 4, 1] && out[1] == [8, 5, 2] && out[2] == [9, 6, 3];
    assert out == [out[0], out[1], out[2]];
  }
}

=== FILE: sorting.dfy ===
/**
 Sorting by a caller-supplied total order, standing for Python's `list.sort()`
 and `sorted()` on elements that compare totally (integers, and lists of
 integers compared lexicographically).
 */
module Sorting {

  /** Any two elements are comparable one way or the other. */
  ghost predicate IsTotal<T(!new)>(le: (T, T) -> bool) {
    forall x, y :: le(x, y) || le(y, x)
  }

  ghost predicate IsAntisymmetric<T(!new)>(le: (T, T) -> bool) {
    forall x, y :: le(x, y) && le(y, x) ==> x == y
  }

  ghost predicate IsTransitive<T(!new)>(le: (T, T) -> bool) {
    forall x, y, z :: le(x, y) && le(y, z) ==> le(x, z)
  }

  /** `le` is a total order (reflexivity follows from totality). */
  ghost predicate IsTotalOrder<T(!new)>(le: (T, T) -> bool) {
    IsTotal(le) && IsAntisymmetric(le) && IsTransitive(le)
  }

  predicate SortedBy<T>(s: seq<T>, le: (T, T) -> bool) {
    forall i, j {:trigger le(s[i], s[j])} :: 0 <= i < j < |s| ==> le(s[i], s[j])
  }

  /** No element occurs twice. */
  predicate Distinct<T(==)>(s: seq<T>) {
    forall i, j :: 0 <= i < j < |s| ==> s[i] != s[j]
  }

  /** Inserts `x` into the sorted `s` before the first element it does not follow. */
  function InsertBy<T(!new)>(x: T, s: seq<T>, le: (T, T) -> bool): (r: seq<T>)
    requires IsTotal(le) && IsTransitive(le)
    requires SortedBy(s, le)
    ensures SortedBy(r, le)
    ensures multiset(r) == multiset(s) + multiset{x}
    ensures |r| == |s| + 1
  {
    if |s| == 0 then [x]
    else if le(x, s[0]) then
      BelowHeadBelowAll(x, s, le);
      SortedCons(x, s, le);
      [x] + s
    else
      var rest := InsertBy(x, s[1..], le);
      assert s == [s[0]] + s[1..];
      FirstBelowAll(s, x, rest, le);
      SortedCons(s[0], rest, le);
      [s[0]] + rest
  }

  /** Putting in front of a sorted sequence an element that precedes its head
      keeps it sorted. */
  lemma SortedCons<T(!new)>(x: T, s: seq<T>, le: (T, T) -> bool)
    requires IsTransitive(le)
    requires SortedBy(s, le)
    requires forall j :: 0 <= j < |s| ==> le(x, s[j])
    ensures SortedBy([x] + s, le)
  {
    var r := [x] + s;
    forall i, j | 0 <= i < j < |r|
      ensures le(r[i], r[j])
    {
      if i == 0 {
        assert le(x, s[j - 1]);
      } else {
        assert le(s[i - 1], s[j - 1]);
      }
    }
  }

  /** What precedes the head of a sorted sequence precedes all of it. */
  lemma BelowHeadBelowAll<T(!new)>(x: T, s: seq<T>, le: (T, T) -> bool)
    requires IsTransitive(le)
    requires |s| > 0 && SortedBy(s, le) && le(x, s[0])
    ensures forall j :: 0 <= j < |s| ==> le(x, s[j])
  {
    forall j | 0 < j < |s|
      ensures le(x, s[j])
    {
      assert le(s[0], s[j]);
    }
  }

  /** Every element of the insertion into the tail follows the head. */
  lemma FirstBelowAll<T(!new)>(s: seq<T>, x: T, rest: seq<T>, le: (T, T) -> bool)
    requires |s| > 0 && SortedBy(s, le) && le(s[0], x)
    requires multiset(rest) == multiset(s[1..]) + multiset{x}
    ensures forall j :: 0 <= j < |rest| ==> le(s[0], rest[j])
  {
    forall j | 0 <= j < |rest|
      ensures le(s[0], rest[j])
    {
      assert rest[j] in multiset(rest);
      if rest[j] != x {
        assert rest[j] in multiset(s[1..]);
        var k :| 0 <= k < |s[1..]| && s[1..][k] == rest[j];
        assert s[k + 1] == rest[j];
        assert le(s[0], s[k + 1]);
      }
    }
  }

  /** Insertion sort: a sorted permutation of `s`. */
  function SortBy<T(!new)>(s: seq<T>, le: (T, T) -> bool): (r: seq<T>)
    requires IsTotalOrder(le)
    ensures SortedBy(r, le)
    ensures multiset(r) == multiset(s)
    ensures |r| == |s|
  {
    if |s| == 0 then []
    else
      assert s == s[..|s| - 1] + [s[|s| - 1]];
      InsertBy(s[|s| - 1], SortBy(s[..|s| - 1], le), le)
  }

  /** Two sorted permutations of one multiset are the same sequence, so the result of
      sorting depends only on the multiset of the input. */
  lemma {:induction false} SortedPermutationsEqual<T(!new)>(a: seq<T>, b: seq<T>, le: (T, T) -> bool)
    requires IsAntisymmetric(le)
    requires SortedBy(a, le) && SortedBy(b, le)
    requires multiset(a) == multiset(b)
    ensures a == b
    decreases |a|
  {
    if |a| == 0 {
      assert |multiset(b)| == 0;
    } else {
      assert |b| == |multiset(b)| == |multiset(a)| == |a|;
      assert a[0] in multiset(b);
      var k :| 0 <= k < |b| && b[k] == a[0];
      assert b[0] in multiset(a);
      var l :| 0 <= l < |a| && a[l] == b[0];
      if k > 0 {
        assert le(b[0], b[k]);
      }
      if l > 0 {
        assert le(a[0], a[l]);
      }
      assert a[0] == b[0];
      assert a == [a[0]] + a[1..];
      assert b == [b[0]] + b[1..];
      assert multiset(a) == multiset{a[0]} + multiset(a[1..]);
      assert multiset(b) == multiset{b[0]} + multiset(b[1..]);
      assert multiset(a[1..]) == multiset(a) - multiset{a[0]};
      assert multiset(b[1..]) == multiset(b) - multiset{b[0]};
      SortedPermutationsEqual(a[1..], b[1..], le);
    }
  }

  /** Sorting is invariant under permuting its input. */
  lemma SortIgnoresOrder<T(!new)>(a: seq<T>, b: seq<T>, le: (T, T) -> bool)
    requires IsTotalOrder(le)
    requires multiset(a) == multiset(b)
    ensures SortBy(a, le) == SortBy(b, le)
  {
    SortedPermutationsEqual(SortBy(a, le), SortBy(b, le), le);
  }

  /** A sequence is distinct exactly when no value occurs in it more than once. */
  lemma {:induction false} DistinctIffSingleOccurrences<T>(s: seq<T>)
    ensures Distinct(s) <==> forall x :: multiset(s)[x] <= 1
  {
    if Distinct(s) {
      DistinctOccurrences(s);
    } else {
      var i, j :| 0 <= i < j < |s| && s[i] == s[j];
      assert s == s[..i] + [s[i]] + s[i + 1..j] + [s[j]] + s[j + 1..];
      assert multiset(s)[s[i]] >= 2;
    }
  }

  lemma {:induction false} DistinctOccurrences<T>(s: seq<T>)
    requires Distinct(s)
    ensures forall x :: multiset(s)[x] <= 1
  {
    if |s| > 0 {
      var p := s[..|s| - 1];
      assert s == p + [s[|s| - 1]];
      assert Distinct(p);
      DistinctOccurrences(p);
      assert s[|s| - 1] !in p;
    }
  }

  /** Reordering a distinct sequence keeps it distinct. */
  lemma DistinctPermutation<T>(a: seq<T>, b: seq<T>)
    requires multiset(a) == multiset(b)
    requires Distinct(a)
    ensures Distinct(b)
  {
    DistinctIffSingleOccurrences(a);
    DistinctIffSingleOccurrences(b);
  }

  /** A sequence without repeats, drawn from `S`, is no longer than `S` is large. */
  lemma {:induction false} DistinctWithin<T>(r: seq<T>, S: set<T>)
    requires Distinct(r)
    requires forall k :: 0 <= k < |r| ==> r[k] in S
    ensures |r| <= |S|
  {
    if |r| > 0 {
      var p := r[..|r| - 1];
      var last := r[|r| - 1];
      assert Distinct(p);
      forall k | 0 <= k < |p|
        ensures p[k] in S - {last}
      {
        assert p[k] == r[k];
      }
      DistinctWithin(p, S - {last});
    }
  }
}

=== FILE: string_compression.dfy ===
/**
 `string_compression` from coding_problems/string_compression.py: a
 `defaultdict(int)` that counts every character of the input. Despite its
 name it counts characters, not runs of equal characters.
 */
module StringCompression {
  import opened Frequency

  /** The table `string_compression(input)` returns: each character of the input
      mapped to the number of times it occurs. */
  function Compress(input: string): (r: map<char, nat>)
    ensures forall c :: c in r <==> c in input
    ensures forall c :: c in r ==> r[c] == multiset(input)[c] && r[c] >= 1
  {
    CountsAreOccurrences(input);
    Counts(input)
  }

  /** The counts, taken over the keys in the order the table lists them, add up
      to the length of the input. */
  lemma CompressCountsEveryCharacter(input: string)
    ensures forall c :: c in KeyOrder(input) <==> c in Compress(input)
    ensures SumOver(KeyOrder(input), Compress(input)) == |input|
  {
    KeysListed(input);
    CountsSumToLength(input);
  }

  /** Rearranging the input does not change the table. */
  lemma CompressIgnoresOrder(a: string, b: string)
    requires multiset(a) == multiset(b)
    ensures Compress(a) == Compress(b)
  {
    CountsIgnoreOrder(a, b);
  }

  /** The module-level sample. */
  lemma CompressSample(input: string)
    requires input == "AAABCCDDDD"
    ensures Compress(input) == map['A' := 3, 'B' := 1, 'C' := 2, 'D' := 4]
  {
    SampleMultiset(input);
    SampleCounts(Compress(input), multiset(input));
  }

  lemma SampleMultiset(input: string)
    requires input == "AAABCCDDDD"
    ensures multiset(input) == multiset{'A', 'A', 'A', 'B', 'C', 'C', 'D', 'D', 'D', 'D'}
  {
  }

  lemma SampleCounts(r: map<char, nat>, m: multiset<char>)
    requires m == multiset{'A', 'A', 'A', 'B', 'C', 'C', 'D', 'D', 'D', 'D'}
    requires forall c :: c in r <==> c in m
    requires forall c :: c in r ==> r[c] == m[c]
    ensures r == map['A' := 3, 'B' := 1, 'C' := 2, 'D' := 4]
  {
    assert r.Keys == {'A', 'B', 'C', 'D'};
  }

  /** Counts, not runs: `ABA` maps `A` to 2, where a run-length code would keep
      two separate runs of one `A` each. */
  lemma CompressCountsNotRuns(input: string)
    requires input == "ABA"
    ensures Compress(input) == map['A' := 2, 'B' := 1]
  {
    assert multiset(input) == multiset{'A', 'A', 'B'};
    TwoLetterCounts(Compress(input), multiset(input));
  }

  lemma TwoLetterCounts(r: map<char, nat>, m: multiset<char>)
    requires m == multiset{'A', 'A', 'B'}
    requires forall c :: c in r <==> c in m
    requires forall c :: c in r ==> r[c] == m[c]
    ensures r == map['A' := 2, 'B' := 1]
  {
    assert r.Keys == {'A', 'B'};
  }
}

=== FILE: wrappers.dfy ===
/** Failure-carrying results shared by the modules of this model. */
module Wrappers {

  /** A value that may be absent; `None` stands for Python's `None`. */
  datatype Option<+T> = None | Some(value: T)

  /** Either a value, or the Python exception the operation would raise. */
  datatype Result<+R, +E> = Success(value: R) | Failure(error: E)
}
